=== FILE: README.md ===
# Roblox source-map downloader: a Dafny model of its core

The downloader fetches a Roblox page and collects the JavaScript bundle URLs
it links (`https://js.rbxcdn.com/….js`). It fetches each bundle, finds the
bundle's `//# sourceMappingURL=` comment and fetches the source map it names,
retrying once on a fixed CDN host. It then writes a `dist/` tree:

- a bundle without a map goes to `dist/not_mapped/`;
- a map that is not JSON is written next to its bundle, and the bundle's
  reference comment is rewritten to point at it;
- a parsed map is exploded into its original sources. Each source is written at
  a sanitised relative path. When different content already sits on that path,
  the source is written to a sibling `name.<bundle>.ext` instead.

This project models that pipeline as pure functions and proves what it
promises. The modules are:

- `Wrappers`: `Option` and `Result`.
- `Http`: the response the `fetch` oracle gives, a status flag and the outcome
  of reading the body. Both fetching modules use it.
- `Text`: the JavaScript string built-ins the code uses (`split`, `join`,
  `trimEnd`, number to decimal) and the regular-expression character classes.
- `LiteralPattern`: JavaScript `exec` semantics for regular expressions of the
  shape `P.+S`. It covers leftmost match, greedy `.+` that stops at a line
  terminator, and a global scan that resumes at each match end. The search
  functions are proved equal to a declarative description of the match.
- `BundleScripts`: `getBundleScripts`, which scans a page for bundle URLs,
  de-duplicates them as a `Set` does, and fetches each bundle. A page or bundle
  body that fails to read makes the whole operation fail.
- `SourceMapLocator`: `getBundleSourceMap` (reference extraction, fallback URL,
  primary/fallback decision) and the batch `getBundlesSourceMaps`.
- `PathSanitizer`: `sanitizeFileName`, `getBundleFileName`,
  `sanitizeRelativeSourcePath`, and the lexical path resolution used to state
  that a sanitised path cannot climb out of the directory it is joined to.
- `MapReference`: `applySourceMapFileReference` and `applyInlineSourceMap`.
  These follow the link-comment convention of section "Linking generated code
  to source maps" of Source Map Revision 3.
- `DistWriter`: `writeBundlesToDist`, which writes into a filesystem modelled
  as a map from path to content.

The loop over a map's sources is modelled in two stages. `DistWriter.Jobs`
first lists, for each source, whether it is written and with which target
and content; none of these depends on the disk. `DistWriter.RunJobs` then runs
the passes in order. The pair is the code's single loop split in two, since
in the code each pass computes its target before it reads the disk.

`fetch`, `new URL(…).pathname`, `JSON.parse` and `path.posix.join` are
parameters (deterministic oracles). Every property holds for any oracle, unless
its row says otherwise.

Behaviour of the code worth knowing:

- The fallback fetch fires when the first response's text is empty or its
  `text()` rejects. The first response's HTTP status is never checked. A
  rejection of the fallback response's `text()` is not caught, so it aborts
  the whole batch (`SourceMapLocator.CollectMaps` returns `Failure`).
- The reference extractor takes the leftmost `//# sourceMappingURL=` that has
  a `.map` later on its line. The capture runs to the last `.map` of that line,
  so it is exactly the written URL when no later `.map` follows on the line.
- `getBundleScripts` never checks a response's status, and neither of its
  `text()` calls is caught. A page or bundle whose body fails to read
  therefore makes the whole call reject (`BundleScripts.GetBundleScripts`
  returns `Failure` with that URL).
- `sourceRoot` is used when it is truthy (a non-empty string), not merely
  present.
- A source whose target already holds identical content is written again.
  That rewrite leaves the disk unchanged.
- The rewriter is idempotent for the writer's own map file names
  (`<fileName>.map`, whitelisted characters only). Two kinds of name break
  idempotence. The first is a name holding a newline followed by other
  text: that text is not on the reference line, so the second pass keeps it
  as a line of the body. The second is a name holding `*/`: the block
  form's `.*?` may run across lines, so on the second pass a line
  `/*# sourceMappingURL=a` above the appended reference is removed together
  with it. The model's lines never join, so `MapReference.ApplyIdempotent`
  excludes only the newline.
- Only one sibling is tried. A third different content for the same target
  overwrites the second one (`DistWriter.SecondCollisionOverwrites`).

## Model

| member | source | states |
|---|---|---|
| PathSanitizer.SanitizeFileName | src/helpers/write-bundles-to-dist.ts:4-8 | the result uses only `[a-zA-Z0-9._-]`; its length is the smaller of the name's length and 200; each kept position holds the input character when it is whitelisted and `_` otherwise |
| PathSanitizer.SanitizeFileNameFixedPoints | src/helpers/write-bundles-to-dist.ts:4-8 | a name is left unchanged exactly when it is whitelisted and at most 200 long |
| PathSanitizer.SanitizeFileNameIdempotent | src/helpers/write-bundles-to-dist.ts:4-8 | sanitising twice equals sanitising once |
| PathSanitizer.NonEmptyParts | src/helpers/write-bundles-to-dist.ts:14 | `.filter(Boolean)` keeps exactly the non-empty segments |
| PathSanitizer.NonEmptyPartsAppend | src/helpers/write-bundles-to-dist.ts:14 | the filter distributes over concatenation and keeps a single part exactly when it is non-empty, so it keeps order and multiplicity |
| PathSanitizer.NonEmptyPartsLast | src/helpers/write-bundles-to-dist.ts:14 | the last kept part, which `.at(-1)` reads, is a part after which every part is empty |
| PathSanitizer.LastSegmentIsLastNonEmpty | src/helpers/write-bundles-to-dist.ts:14 | the segment read is never empty and holds no `/`; it is `bundle.js` when the URL does not parse or no part is non-empty, and otherwise a part of the pathname after which every part is empty |
| PathSanitizer.BundleFileName | src/helpers/write-bundles-to-dist.ts:11-19 | the bundle file name is never empty, whitelisted and at most 200 long |
| PathSanitizer.BundleFileNameCases | src/helpers/write-bundles-to-dist.ts:11-19 | `bundle.js` when the URL does not parse or its pathname has no non-empty segment; otherwise the last non-empty segment, sanitised |
| PathSanitizer.BundleFileNameIsSegment | src/helpers/write-bundles-to-dist.ts:11-19 | the name holds no `/`, is already sanitised, and is `.` or `..` only when the pathname itself has that segment |
| PathSanitizer.NormalizeSeparators | src/helpers/write-bundles-to-dist.ts:117 | every backslash becomes `/` and every other character is kept in place, so no backslash remains |
| PathSanitizer.NormalizeSeparatorsIdempotent | src/helpers/write-bundles-to-dist.ts:117 | normalising twice equals normalising once, and text without a backslash is unchanged |
| PathSanitizer.StripWebpackShape | src/helpers/write-bundles-to-dist.ts:120 | the webpack strip removes exactly the ten characters of `webpack://`, and only when the text starts with them |
| PathSanitizer.StripSchemeShape | src/helpers/write-bundles-to-dist.ts:121 | the scheme strip removes only a prefix made of at least one letter followed by `://` |
| PathSanitizer.StripDriveShape | src/helpers/write-bundles-to-dist.ts:124 | the drive strip removes exactly a letter, `:` and `/`, and only when the text starts with them |
| PathSanitizer.StripDotSlashesShape | src/helpers/write-bundles-to-dist.ts:127 | the dot-slash strip changes the text exactly when it starts with `./`, and then removes the `.` and every `/` after it |
| PathSanitizer.StripSlashesShape | src/helpers/write-bundles-to-dist.ts:128 | the slash strip removes exactly the leading slashes |
| PathSanitizer.NormalizeRawShape | src/helpers/write-bundles-to-dist.ts:116-128 | `NormalizeRaw`, the five strips in the code's order, only removes a prefix of the slash-normalised input and leaves no backslash and no leading `/` |
| PathSanitizer.WebpackPrefixNormalized | src/helpers/write-bundles-to-dist.ts:117-128 | `webpack:///./<rest>` is stripped to `./<rest>` |
| PathSanitizer.DriveLetterNormalized | src/helpers/write-bundles-to-dist.ts:117-128 | `<letter>:/<rest>` is stripped to `<rest>` |
| PathSanitizer.SchemeStripped | src/helpers/write-bundles-to-dist.ts:121 | `<letters>://<rest>` loses exactly `<letters>://`, whatever `<rest>` is |
| PathSanitizer.KeptSegments | src/helpers/write-bundles-to-dist.ts:130 | keeps exactly the segments that are not empty, `.` or `..` |
| PathSanitizer.KeptSegmentsAppend | src/helpers/write-bundles-to-dist.ts:130 | the filter distributes over concatenation, so it keeps order and multiplicity |
| PathSanitizer.KeptSegmentsSingle | src/helpers/write-bundles-to-dist.ts:130 | a single segment is kept exactly when it is not empty, `.` or `..` |
| PathSanitizer.CleanSegment | src/helpers/write-bundles-to-dist.ts:133-143 | every cleaned segment is non-empty, whitelisted and does not start with `.` |
| PathSanitizer.LeadingDotGuardIsDead | src/helpers/write-bundles-to-dist.ts:135-141 | the leading-dot guard never fires, because leading dots were stripped first |
| PathSanitizer.CleanSegmentReplaces | src/helpers/write-bundles-to-dist.ts:135-139 | a segment not starting with `.` is only whitelisted |
| PathSanitizer.SanitizeRelativeSourcePath | src/helpers/write-bundles-to-dist.ts:113-147 | null exactly for the empty input and for an input none of whose segments survives the filter of empty, `.` and `..` segments |
| PathSanitizer.SanitizedPathIsSafe | src/helpers/write-bundles-to-dist.ts:130-146 | every segment of a non-null result is non-empty, whitelisted and does not start with `.`, so it is never `.` or `..` and the path has no leading, trailing or doubled `/` |
| PathSanitizer.SanitizedSegments | src/helpers/write-bundles-to-dist.ts:130-145 | a non-null result has one segment per surviving segment, the k-th being that segment cleaned with index k |
| PathSanitizer.SanitizeRelativeSourcePathIdempotent | src/helpers/write-bundles-to-dist.ts:113-147 | a safe path sanitises to itself |
| PathSanitizer.SanitizeRelativeSourcePathStable | src/helpers/write-bundles-to-dist.ts:113-147 | re-sanitising any result returns it unchanged |
| PathSanitizer.SanitizeThroughSegments | src/helpers/write-bundles-to-dist.ts:113-147 | an input whose surviving segments are those of a safe path `p` sanitises to `p` |
| PathSanitizer.SanitizeWebpackPath | src/helpers/write-bundles-to-dist.ts:113-147 | `webpack:///./<p>` sanitises to `p` for every safe `p`, e.g. `webpack:///./src/a.ts` gives `src/a.ts` |
| PathSanitizer.SanitizeDrivePath | src/helpers/write-bundles-to-dist.ts:113-147 | `<letter>:/<p>` sanitises to `p` for every safe `p` |
| PathSanitizer.SanitizeSchemePath | src/helpers/write-bundles-to-dist.ts:113-147 | `<scheme>://<p>` sanitises to `p` for every non-empty scheme of ASCII letters (`webpack` included) and every safe `p`, e.g. `https://x/a.ts` gives `x/a.ts` |
| PathSanitizer.SanitizedPathStaysInside | src/helpers/write-bundles-to-dist.ts:130-146 | a sanitised path joined under any root resolves to that root followed by the path's own segments, so it never escapes |
| PathSanitizer.TraversalEscapes | src/helpers/write-bundles-to-dist.ts:89 | an unsanitised `../../etc` under `dist` resolves outside it: this is the traversal the sanitiser prevents |
| MapReference.BlankReferences | src/helpers/write-bundles-to-dist.ts:28-30 | line by line, a reference line becomes empty and every other line is kept as it is |
| MapReference.BlankReferencesIdempotent | src/helpers/write-bundles-to-dist.ts:28-30 | blanking twice equals blanking once, and lines with no reference are left unchanged |
| MapReference.StripReferences | src/helpers/write-bundles-to-dist.ts:28-30 | the stripped text has the same number of lines as the input; each reference line is empty and every other line is kept |
| MapReference.ApplySourceMapFileReference | src/helpers/write-bundles-to-dist.ts:27-34 | the output ends with `\n//# sourceMappingURL=<name>\n`; what precedes it ends in no white space and contains no reference line, and it is the input with its reference lines blanked and its trailing white space trimmed, so every other line is kept |
| MapReference.ApplyInlineSourceMap | src/helpers/write-bundles-to-dist.ts:21-25 | the older name gives the same output: `\n//# sourceMappingURL=<name>\n` after the input with its reference lines blanked and its end trimmed, a body that ends in no white space and holds no reference line |
| MapReference.StrippedHasNoReferences | src/helpers/write-bundles-to-dist.ts:28-31 | after both `replace` calls, and after `trimEnd`, no line is a reference |
| MapReference.TrimEndKeepsNoReferences | src/helpers/write-bundles-to-dist.ts:31 | trimming the end never creates a reference line |
| MapReference.ApplyWithoutReferences | src/helpers/write-bundles-to-dist.ts:27-33 | text with no reference line is only trimmed before the new line is appended |
| MapReference.ExactlyOneReference | src/helpers/write-bundles-to-dist.ts:27-33 | the output has exactly one reference line, the second-to-last piece |
| MapReference.StripOutput | src/helpers/write-bundles-to-dist.ts:28-30 | stripping an output blanks exactly its own reference line |
| MapReference.ApplyIdempotent | src/helpers/write-bundles-to-dist.ts:27-33 | applying twice with the same name equals applying once |
| LiteralPattern.FirstMatch | src/helpers/get-bundle-source-map.ts:19-20 | the search returns the leftmost match and, from that start, the longest one; `None` exactly when nothing matches |
| LiteralPattern.FirstMatchUnique | src/helpers/get-bundle-source-map.ts:19-20 | the leftmost-longest description determines at most one match |
| LiteralPattern.WrittenFirstMatch | src/helpers/get-bundle-source-map.ts:19-20 | a marker and a one-line capture ending in the suffix, at the end of its line (a line terminator or the end of the text), with no marker earlier, is the match `exec` finds |
| LiteralPattern.ScanFrom | src/helpers/get-bundle-scripts.ts:8-11 | the global `exec` loop: each match is the first one after the previous match's end, and none follows the last |
| LiteralPattern.ScanUnique | src/helpers/get-bundle-scripts.ts:8-11 | that description determines the list of matches |
| LiteralPattern.ScanOrdered | src/helpers/get-bundle-scripts.ts:8-11 | scan matches are real matches, left to right and non-overlapping |
| BundleScripts.MatchedTextIsBundleUrl | src/helpers/get-bundle-scripts.ts:6 | a match starts with `https://js.rbxcdn.com/`, ends with `.js`, has at least one character between, and crosses no line terminator |
| BundleScripts.DiscoverUrls | src/helpers/get-bundle-scripts.ts:6-11 | the discovered list is the texts of the global scan's matches, each a bundle URL |
| BundleScripts.SameLineUrlsMerge | src/helpers/get-bundle-scripts.ts:6 | two bundle URLs on one line form a single match, because the greedy `.+` runs to the last `.js` |
| BundleScripts.Dedup | src/helpers/get-bundle-scripts.ts:5-11 | the set holds each discovered URL once, no others, in first-discovery order |
| BundleScripts.DedupDistinct | src/helpers/get-bundle-scripts.ts:5-11 | without duplicates the discovery order is kept unchanged |
| BundleScripts.DedupIdempotent | src/helpers/get-bundle-scripts.ts:5-11 | adding the set's own contents again changes nothing |
| BundleScripts.FetchAll | src/helpers/get-bundle-scripts.ts:15-19 | succeeds exactly when every URL's body reads, with one entry per URL, in order, holding that URL's body; otherwise it fails with the first URL whose body rejects |
| BundleScripts.GetBundleScripts | src/helpers/get-bundle-scripts.ts:1-22 | fails with the page URL when the page body rejects, and with the first bundle URL whose body rejects; on success the keys are distinct, are exactly the URLs discovered on `https://roblox.com/<pathname>`, in first-discovery order, and each holds its own body |
| BundleScripts.FetchAllStatusIgnored | src/helpers/get-bundle-scripts.ts:15-19 | the bundle loop's result does not depend on any response's status |
| BundleScripts.StatusIgnored | src/helpers/get-bundle-scripts.ts:1-22 | `response.ok` is never checked: changing every status leaves the result, success or failure, unchanged |
| SourceMapLocator.ExtractMapReference | src/helpers/get-bundle-source-map.ts:19-21 | absent exactly when no match exists; otherwise the capture of the leftmost-longest match, which ends in `.map` and stays on one line |
| SourceMapLocator.ExtractsWrittenReference | src/helpers/get-bundle-source-map.ts:19-21 | a bundle whose first reference comment ends its line, at any line terminator or at the end of the text, yields exactly the URL written in it |
| SourceMapLocator.SecondField | src/helpers/get-bundle-source-map.ts:30 | `split(sep)[1]`: absent exactly when `sep` does not occur; otherwise the text between the first `sep` and the next one or the end |
| SourceMapLocator.FallbackUrl | src/helpers/get-bundle-source-map.ts:30-31 | the fallback is `https://js.rbxcdn.com/` plus that field, or plus `undefined` when there is none |
| SourceMapLocator.FallbackReplacesHost | src/helpers/get-bundle-source-map.ts:30-31 | a URL with a single `rbxcdn.com/` falls back to the same path on `js.rbxcdn.com` |
| SourceMapLocator.GetBundleSourceMap | src/helpers/get-bundle-source-map.ts:18-39 | nothing is fetched without a reference; a non-empty first text is returned as it is; otherwise the fallback is fetched, gives nothing when not OK, and gives its text or the rejection when OK |
| SourceMapLocator.FoundTextWasFetched | src/helpers/get-bundle-source-map.ts:25-38 | at most two URLs are fetched, and a found map is the body of one of them |
| SourceMapLocator.PrimaryStatusIgnored | src/helpers/get-bundle-source-map.ts:25-28 | flipping the first response's status does not change the outcome, when the first body is non-empty or the fallback URL differs from the first one |
| SourceMapLocator.PrimaryStatusMattersOnSameUrl | src/helpers/get-bundle-source-map.ts:25-33 | a reference already on `js.rbxcdn.com` falls back to itself, so with an empty first body its status decides between `""` and `undefined` |
| SourceMapLocator.CollectMaps | src/helpers/get-bundle-source-map.ts:1-16 | succeeds exactly when no fallback body rejects, and a failure names such a bundle; the result's keys are input keys, a bundle's key is present exactly when its map is truthy, and its value is that map |
| SourceMapLocator.CollectWarnings | src/helpers/get-bundle-source-map.ts:4-11 | the warnings name exactly the skipped bundles whose URL contains `sentry` |
| SourceMapLocator.BatchOnlyReferencedBundles | src/helpers/get-bundle-source-map.ts:1-23 | every bundle with a map in the batch has a reference comment |
| DistWriter.ReadFileIfExists | src/helpers/write-bundles-to-dist.ts:149-156 | the content for a readable existing file, `null` otherwise |
| DistWriter.Write | src/helpers/write-bundles-to-dist.ts:108 | a write creates or overwrites its path and leaves every other file alone |
| DistWriter.Extension | src/helpers/write-bundles-to-dist.ts:99 | the extension is the base name's suffix from its last dot; it is empty when there is no dot, when the only dot is the first character, or for `..` |
| DistWriter.ParsePath | src/helpers/write-bundles-to-dist.ts:99 | name plus extension is the base name, and the directory plus `/` plus the base name is the path |
| DistWriter.NewBaseName | src/helpers/write-bundles-to-dist.ts:101 | the new name is the base name's stem, a `.`, the sanitised bundle name, then the base name's extension |
| DistWriter.NewBaseNameKeepsExtension | src/helpers/write-bundles-to-dist.ts:99-101 | when the base name has an extension, the new name parses back to the same extension, with the stem followed by `.` and the sanitised bundle name as its name |
| DistWriter.SiblingPath | src/helpers/write-bundles-to-dist.ts:99-102 | the sibling is the new base name joined to the target's directory (`.` when it has none) |
| DistWriter.SiblingIsLonger | src/helpers/write-bundles-to-dist.ts:99-102 | a relative target's sibling is longer, so it differs from the target |
| DistWriter.SiblingInsideDist | src/helpers/write-bundles-to-dist.ts:99-102 | the sibling of a path inside `dist` is inside `dist` |
| DistWriter.WritePath | src/helpers/write-bundles-to-dist.ts:94-103 | the target when nothing readable or the same content is there; the sibling when different content is |
| DistWriter.WriteSource | src/helpers/write-bundles-to-dist.ts:93-108 | no file is removed, and the content goes to the path the collision rule picks |
| DistWriter.IdenticalWriteIsNoOp | src/helpers/write-bundles-to-dist.ts:93-108 | rewriting the content a target holds leaves the disk unchanged |
| DistWriter.CollisionKeepsBoth | src/helpers/write-bundles-to-dist.ts:93-108 | different content for an occupied target keeps the old file and adds the new content at the sibling, and nothing else |
| DistWriter.CollisionScenario | src/helpers/write-bundles-to-dist.ts:93-108 | `A` then a different `B` for one target from another bundle ends with exactly two files: `A` at the target and `B` at the sibling |
| DistWriter.SecondCollisionOverwrites | src/helpers/write-bundles-to-dist.ts:93-108 | a third different content for the same target lands on the same sibling and replaces the second |
| DistWriter.SourceContent | src/helpers/write-bundles-to-dist.ts:80-81 | a source is considered exactly when its `sourcesContent` entry is a non-empty string |
| DistWriter.CombinedPath | src/helpers/write-bundles-to-dist.ts:79-84 | the logical path is `sources[i]` (`source_<i>.txt` for `null`), posix-joined under `sourceRoot` only when that is a non-empty string |
| DistWriter.SourceTarget | src/helpers/write-bundles-to-dist.ts:78-89 | source `i` is written exactly when its content is a non-empty string and its path sanitises to something; the target is that path under `dist`, inside `dist` |
| DistWriter.ExplodeSources | src/helpers/write-bundles-to-dist.ts:78-109 | exploding a map never removes a file |
| DistWriter.RunJobWrites | src/helpers/write-bundles-to-dist.ts:90-108 | a path one pass creates or changes is its source's target or the target's sibling, and holds the source's content |
| DistWriter.ChangedByJob | src/helpers/write-bundles-to-dist.ts:78-109 | a path the first `k` passes create or change was written by one of those passes, with its content |
| DistWriter.ExplodeWritesSelected | src/helpers/write-bundles-to-dist.ts:78-109 | every file created or changed holds the content of a selected source, at its target or its sibling |
| DistWriter.RunJobKeeps | src/helpers/write-bundles-to-dist.ts:90-108 | one pass leaves alone every path other than its target and the target's sibling |
| DistWriter.ExplodeFrame | src/helpers/write-bundles-to-dist.ts:78-109 | a file that no pass from `j` up to `k` may write, at its target or its sibling, keeps its content through those passes |
| DistWriter.ExplodeWritesEverySelected | src/helpers/write-bundles-to-dist.ts:78-109 | every selected source is written: its content ends up at its target or at the target's sibling, unless a later selected source may write the same path |
| DistWriter.SkipsWriteNothing | src/helpers/write-bundles-to-dist.ts:78-89 | passes whose sources are all skipped leave the disk unchanged |
| DistWriter.NothingSelectedNothingWritten | src/helpers/write-bundles-to-dist.ts:78-109 | a map with no selected source leaves the disk unchanged |
| DistWriter.OneOfTwoSourcesWritten | src/helpers/write-bundles-to-dist.ts:74-108 | with `sources = [a, b]` and `sourcesContent = [x, null]`, exactly one file is written, `x` at `a` under `dist` |
| DistWriter.SafeSourceTarget | src/helpers/write-bundles-to-dist.ts:84-89 | a source whose logical path is already safe is written at exactly that path under `dist` |
| DistWriter.WriteBundle | src/helpers/write-bundles-to-dist.ts:47-110 | handling one bundle never removes a file |
| DistWriter.UnmappedBundle | src/helpers/write-bundles-to-dist.ts:51-57 | a bundle with a missing or empty map is copied verbatim to `dist/not_mapped/<fileName>`, and nothing else changes |
| DistWriter.UnparseableMapBundle | src/helpers/write-bundles-to-dist.ts:60-71 | a map that is not JSON gives exactly two writes: the raw map at `dist/<fileName>.map` and the rewritten bundle at `dist/<fileName>` |
| DistWriter.ParsedMapBundle | src/helpers/write-bundles-to-dist.ts:59-109 | a parsed map writes only its selected sources, never the bundle itself |
| DistWriter.WriteBundlesToDist | src/helpers/write-bundles-to-dist.ts:36-111 | the writer never removes a file |
| DistWriter.WriteBundleInsideDist | src/helpers/write-bundles-to-dist.ts:47-110 | whichever branch a bundle takes, every path it changes lies inside `dist`, provided URL pathnames hold no `.` or `..` segment |
| DistWriter.WriteBundlesToDistInsideDist | src/helpers/write-bundles-to-dist.ts:36-111 | the whole run changes only paths inside `dist` and removes nothing, provided URL pathnames hold no `.` or `..` segment |
| Text.JoinSplit | src/helpers/write-bundles-to-dist.ts:130-145 | joining the `split` pieces with the separator gives the string back |
| Text.SplitJoin | src/helpers/write-bundles-to-dist.ts:130-145 | splitting a join of separator-free pieces gives the pieces back |
| Text.DecimalRoundTrip | src/helpers/write-bundles-to-dist.ts:139 | the decimal text of an index reads back as that index |

## Left out

- `src/index.ts` (top-level orchestration and console output) and
  `src/helpers/format-dist-with-biome.ts` (runs an external formatter process)
  are not part of this model.
- Real HTTP is not modelled: `fetch` is a deterministic oracle from URL to
  status and body (`Http.Response`). A network error thrown by `fetch` itself
  propagates in the code and is not modelled. A body whose `text()` rejects is
  `None`, in both `getBundleScripts` and `getBundleSourceMap`. The reason for
  the rejection is not modelled: a failure carries only the URL whose body
  rejected.
- `new URL(…).pathname`, `JSON.parse` and `path.posix.join` are oracles. A
  parsed map is reduced to the three fields the writer reads. JSON that parses
  to a non-object, which would throw when `sources` is read, is not modelled.
- Directories and `mkdir` are not modelled: the output tree is a flat map from
  path to content, plus the set of paths that exist but cannot be read.
  Every write succeeds in the model, even to a path in that set. In the code,
  `writeFile` and `mkdir` throw when the path is a directory, lies under a
  file or is not writable, and the exception ends the whole run. For example,
  a map with sources `a` and `a/b.ts` makes the second of the two writes fail.
- `distDir` is fixed to `dist` and `path.sep` to `/`. `path.join` is modelled
  by concatenation on paths that need no normalisation, and
  `PathSanitizer.ResolveFrom` gives the resolution used to state containment.
- async/await ordering is not modelled: the loops run sequentially, as awaited
  in the code.
- `console.warn` appears only as the list of warned bundle URLs.
- A string is a sequence of Unicode scalar values, not of UTF-16 code units as
  in JavaScript. On text outside the Basic Multilingual Plane the model
  therefore differs from the code: such a character is one `char` here but two
  code units there, so `sanitizeFileName` turns it into one `_` instead of two,
  and lengths, the 200-unit cut and the `.` of both regular expressions count
  differently.
- MapReference.ApplySourceMapFileReference: the two `replace` calls are
  modelled line by line, with lines split at `\n` only. In the code, the
  leading `^\s*` can also remove blank lines above a reference. The `\s*`
  after `#`, and the dot-all `.*?` of the block form, can run across lines. And
  `\r`, U+2028 and U+2029 also end a line for `^` and `$`. Finally, the
  block form's trailing `\s*$` removes the blank lines below a `/*# … */`
  reference, up to the last line terminator before further text, which the
  model keeps.
- MapReference.StripReferences: models the same two `replace` calls, so it
  carries the same line-by-line approximation as ApplySourceMapFileReference.
- MapReference.BlankReferences: the per-line step of StripReferences, with the
  same approximation.
- MapReference.ApplyInlineSourceMap: delegates to ApplySourceMapFileReference,
  as the code does, and inherits the same approximation.
- DistWriter.WriteBundlesToDistInsideDist: holds under the hypothesis that the
  URL parser removes `.` and `..` segments from pathnames (`NormalPathnames`),
  as the WHATWG URL parser does. A bundle file name of `..` would otherwise
  make `dist/..` a target, which resolves outside `dist`.
- MapReference.ApplyIdempotent: requires a map file name without `\n`. Text
  after a newline in the name is not part of the reference line, so the second
  application keeps it in the body when it is not white space. For the code
  the name must also hold no `*/`, because the block form's `.*?` can join a
  line above to the appended reference. The model's lines never join, so it
  does not need that hypothesis.
- MapReference.ExactlyOneReference: requires a map file name without `\n`.
  A newline in the name splits the appended reference line, so the reference
  is no longer the second-to-last piece.
- SourceMapLocator.ExtractsWrittenReference: states the round trip only for a
  comment whose URL ends its line. The code also returns the written URL when
  other text without a `.map` follows on the line; when a later `.map` does,
  the greedy capture runs on to it.
- SourceMapLocator.PrimaryStatusIgnored: requires a non-empty first body or
  a fallback URL different from the first one. Otherwise the fallback fetch is
  the same URL, whose status does decide the outcome
  (`SourceMapLocator.PrimaryStatusMattersOnSameUrl`).
- DistWriter.WriteBundleInsideDist: holds under the same `NormalPathnames`
  hypothesis as the whole run, for the same reason.
- SourceMapLocator.GetBundlesSourceMaps carries no contract of its own. It is
  `SourceMapLocator.CollectMaps` with `getBundleSourceMap` as the lookup, and
  the contract is stated there.

=== FILE: bundle_scripts.dfy ===
/** `getBundleScripts` (src/helpers/get-bundle-scripts.ts): fetch a Roblox
    page, collect every `https://js.rbxcdn.com/….js` URL in it with a global
    regex scan, drop duplicates as a `Set` does, and fetch each bundle once.
    A rejection of either `text()` call is not caught and makes the whole
    operation reject. */
module BundleScripts {
  import opened Wrappers
  import opened Http
  import opened Text
  import opened LiteralPattern

  const PageRoot := "https://roblox.com/"
  const CdnPrefix := "https://js.rbxcdn.com/"
  const ScriptSuffix := ".js"

  /** The shape of every string `/https:\/\/js\.rbxcdn\.com\/.+\.js/` matches. */
  predicate IsBundleUrl(u: string) {
    && |u| >= |CdnPrefix| + 1 + |ScriptSuffix|
    && u[..|CdnPrefix|] == CdnPrefix
    && u[|u| - |ScriptSuffix|..] == ScriptSuffix
    && NoLineTerminator(u, 0, |u|)
  }

  /** A match is a bundle URL. */
  lemma MatchedTextIsBundleUrl(html: string, i: int, e: int)
    requires MatchAt(html, CdnPrefix, ScriptSuffix, i, e)
    ensures IsBundleUrl(html[i..e])
  {
    var u := html[i..e];
    var j := i + |CdnPrefix|;
    assert u[..|CdnPrefix|] == html[i..j];
    assert u[|u| - |ScriptSuffix|..] == html[e - |ScriptSuffix|..e];
    forall k | 0 <= k < |u| ensures !IsLineTerminator(u[k]) {
      assert u[k] == html[i + k];
      if k < |CdnPrefix| {
        assert u[k] == CdnPrefix[k];
      } else if k >= |u| - |ScriptSuffix| {
        assert u[k] == ScriptSuffix[k - (|u| - |ScriptSuffix|)];
      }
    }
  }

  /** `match[0]` of each span. */
  function Texts(html: string, spans: seq<(nat, nat)>): (urls: seq<string>)
    requires forall k :: 0 <= k < |spans| ==>
      spans[k].0 <= spans[k].1 <= |html| && MatchAt(html, CdnPrefix, ScriptSuffix, spans[k].0, spans[k].1)
    ensures |urls| == |spans|
    ensures forall k :: 0 <= k < |urls| ==> urls[k] == html[spans[k].0..spans[k].1] && IsBundleUrl(urls[k])
    decreases |spans|
  {
    if |spans| == 0 then []
    else
      MatchedTextIsBundleUrl(html, spans[0].0, spans[0].1);
      [html[spans[0].0..spans[0].1]] + Texts(html, spans[1..])
  }

  /** The `while ((match = urlRegex.exec(html)) !== null)` loop: the text of
      every match, left to right, with duplicates. */
  function DiscoverUrls(html: string): (urls: seq<string>)
    ensures forall k :: 0 <= k < |urls| ==> IsBundleUrl(urls[k])
    ensures exists spans: seq<(nat, nat)> ::
      && IsScan(html, CdnPrefix, ScriptSuffix, 0, spans)
      && (forall k :: 0 <= k < |spans| ==>
            spans[k].0 <= spans[k].1 <= |html| && MatchAt(html, CdnPrefix, ScriptSuffix, spans[k].0, spans[k].1))
      && urls == Texts(html, spans)
  {
    var spans := ScanFrom(html, CdnPrefix, ScriptSuffix, 0);
    ScanOrdered(html, CdnPrefix, ScriptSuffix, 0, spans);
    Texts(html, spans)
  }

  /** Two bundle URLs on one line are taken as a single match: the greedy `.+`
      runs on to the last `.js` of the line. */
  lemma SameLineUrlsMerge(a: string, b: string)
    requires NoLineTerminator(a, 0, |a|) && NoLineTerminator(b, 0, |b|)
    ensures var html := CdnPrefix + a + ScriptSuffix + " " + CdnPrefix + b + ScriptSuffix;
      DiscoverUrls(html) == [html]
  {
    var html := CdnPrefix + a + ScriptSuffix + " " + CdnPrefix + b + ScriptSuffix;
    var n := |html|;
    WholeLineMatches(a, b);
    assert IsFirstMatch(html, CdnPrefix, ScriptSuffix, 0, 0, n);
    assert IsScan(html, CdnPrefix, ScriptSuffix, 0, [(0, n)]);
    var spans := ScanFrom(html, CdnPrefix, ScriptSuffix, 0);
    ScanUnique(html, CdnPrefix, ScriptSuffix, 0, spans, [(0, n)]);
    assert DiscoverUrls(html) == Texts(html, [(0, n)]);
    assert html[0..n] == html;
  }

  lemma WholeLineMatches(a: string, b: string)
    requires NoLineTerminator(a, 0, |a|) && NoLineTerminator(b, 0, |b|)
    ensures var html := CdnPrefix + a + ScriptSuffix + " " + CdnPrefix + b + ScriptSuffix;
      MatchAt(html, CdnPrefix, ScriptSuffix, 0, |html|)
  {
    var mid := a + ScriptSuffix + " " + CdnPrefix + b;
    var html := CdnPrefix + mid + ScriptSuffix;
    assert html == CdnPrefix + a + ScriptSuffix + " " + CdnPrefix + b + ScriptSuffix;
    var n := |html|;
    assert html[..|CdnPrefix|] == CdnPrefix;
    assert html[n - |ScriptSuffix|..n] == ScriptSuffix;
    MiddleOnOneLine(a, b);
    forall k | |CdnPrefix| <= k < n - |ScriptSuffix| ensures !IsLineTerminator(html[k]) {
      assert html[k] == mid[k - |CdnPrefix|];
    }
  }

  lemma MiddleOnOneLine(a: string, b: string)
    requires NoLineTerminator(a, 0, |a|) && NoLineTerminator(b, 0, |b|)
    ensures var mid := a + ScriptSuffix + " " + CdnPrefix + b; NoLineTerminator(mid, 0, |mid|)
  {
    var glue := ScriptSuffix + " " + CdnPrefix;
    assert NoLineTerminator(glue, 0, |glue|);
    var mid := a + glue + b;
    assert mid == a + ScriptSuffix + " " + CdnPrefix + b;
    forall k | 0 <= k < |mid| ensures !IsLineTerminator(mid[k]) {
      if k < |a| {
        assert mid[k] == a[k];
      } else if k < |a| + |glue| {
        assert mid[k] == glue[k - |a|];
      } else {
        assert mid[k] == b[k - |a| - |glue|];
      }
    }
  }

  // ---------------------------------------------------------------------------
  // The Set

  /** The position of the first occurrence of `x`. */
  function FirstIndex(s: seq<string>, x: string): (k: nat)
    requires x in s
    ensures k < |s| && s[k] == x && x !in s[..k]
    decreases |s|
  {
    if s[0] == x then 0 else 1 + FirstIndex(s[1..], x)
  }

  lemma {:induction false} FirstIndexPrefix(s: seq<string>, x: string, n: nat)
    requires n <= |s| && x in s[..n]
    ensures FirstIndex(s, x) == FirstIndex(s[..n], x)
    decreases |s|
  {
    if s[0] != x {
      assert s[1..][..n - 1] == s[..n][1..];
      FirstIndexPrefix(s[1..], x, n - 1);
    }
  }

  /** The values of `r` appear in the order of their first occurrences in `s`. */
  predicate InFirstOccurrenceOrder(r: seq<string>, s: seq<string>) {
    forall j, k :: 0 <= j < k < |r| && r[j] in s && r[k] in s ==> FirstIndex(s, r[j]) < FirstIndex(s, r[k])
  }

  /** A `Set<string>` filled by `add` in order, iterated in insertion order: each
      value once, at the place of its first occurrence. */
  function Dedup(s: seq<string>): (r: seq<string>)
    ensures forall j, k :: 0 <= j < k < |r| ==> r[j] != r[k]
    ensures forall x :: x in r <==> x in s
    ensures InFirstOccurrenceOrder(r, s)
    decreases |s|
  {
    if |s| == 0 then []
    else
      var d := Dedup(s[..|s| - 1]);
      DedupOrder(s, d);
      if s[|s| - 1] in d then d else d + [s[|s| - 1]]
  }

  lemma DedupOrder(s: seq<string>, d: seq<string>)
    requires |s| > 0
    requires forall x :: x in d <==> x in s[..|s| - 1]
    requires InFirstOccurrenceOrder(d, s[..|s| - 1])
    ensures InFirstOccurrenceOrder(d, s)
    ensures s[|s| - 1] !in d ==> InFirstOccurrenceOrder(d + [s[|s| - 1]], s)
  {
    var n := |s| - 1;
    var init := s[..n];
    forall x | x in d ensures FirstIndex(s, x) == FirstIndex(init, x) {
      FirstIndexPrefix(s, x, n);
    }
    assert InFirstOccurrenceOrder(d, s) by {
      forall j, k | 0 <= j < k < |d| && d[j] in s && d[k] in s
        ensures FirstIndex(s, d[j]) < FirstIndex(s, d[k])
      {
        assert d[j] in d && d[k] in d;
      }
    }
    if s[n] !in d {
      assert s[n] !in init;
      var f := FirstIndex(s, s[n]);
      assert f == n;
      var d' := d + [s[n]];
      forall j, k | 0 <= j < k < |d'| && d'[j] in s && d'[k] in s
        ensures FirstIndex(s, d'[j]) < FirstIndex(s, d'[k])
      {
        assert d'[j] == d[j];
        if k < |d| {
          assert d'[k] == d[k];
          assert d[j] in d && d[k] in d;
        } else {
          assert d[j] in d;
        }
      }
    }
  }

  /** Without duplicates, the set keeps the discovery order unchanged. */
  lemma {:induction false} DedupDistinct(s: seq<string>)
    requires forall j, k :: 0 <= j < k < |s| ==> s[j] != s[k]
    ensures Dedup(s) == s
    decreases |s|
  {
    if |s| > 0 {
      var init := s[..|s| - 1];
      DedupDistinct(init);
      assert s[|s| - 1] !in init;
      assert init + [s[|s| - 1]] == s;
    }
  }

  /** Adding the same URLs to the set again changes nothing. */
  lemma DedupIdempotent(s: seq<string>)
    ensures Dedup(Dedup(s)) == Dedup(s)
  {
    DedupDistinct(Dedup(s));
  }

  // ---------------------------------------------------------------------------
  // getBundleScripts

  lemma DedupKeepsBundleUrls(s: seq<string>)
    requires forall k :: 0 <= k < |s| ==> IsBundleUrl(s[k])
    ensures forall k :: 0 <= k < |Dedup(s)| ==> IsBundleUrl(Dedup(s)[k])
  {
    var d := Dedup(s);
    forall k | 0 <= k < |d| ensures IsBundleUrl(d[k]) {
      assert d[k] in d;
      var j :| 0 <= j < |s| && s[j] == d[k];
    }
  }

  /** Every URL of `urls` answers with a readable body. */
  predicate AllReadable(urls: seq<string>, fetch: string -> Response) {
    forall k :: 0 <= k < |urls| ==> fetch(urls[k]).body.Some?
  }

  /** `url` is the first URL of `urls` whose body rejects: the one whose
      rejection ends the loop. */
  predicate FirstUnreadable(urls: seq<string>, fetch: string -> Response, url: string) {
    exists k :: 0 <= k < |urls| && urls[k] == url && fetch(url).body.None? && AllReadable(urls[..k], fetch)
  }

  /** The bundle loop of `getBundleScripts`: `bundles.set(url, await (await fetch(url)).text())` for each
      URL in turn; the first rejecting `text()` ends the loop with its URL. */
  function FetchAll(urls: seq<string>, fetch: string -> Response): (r: Result<seq<(string, string)>, string>)
    ensures r.Success? <==> AllReadable(urls, fetch)
    ensures r.Success? ==> Keys(r.value) == urls
    ensures r.Success? ==> forall k :: 0 <= k < |r.value| ==> Some(r.value[k].1) == fetch(urls[k]).body
    ensures r.Failure? ==> FirstUnreadable(urls, fetch, r.error)
    decreases |urls|
  {
    if |urls| == 0 then Success([])
    else match fetch(urls[0]).body
      case None =>
        assert AllReadable(urls[..0], fetch);
        Failure(urls[0])
      case Some(text) =>
        match FetchAll(urls[1..], fetch)
        case Failure(e) =>
          ShiftUnreadable(urls, fetch, e);
          Failure(e)
        case Success(rest) =>
          ConsFetched(urls, fetch, text, rest);
          Success([(urls[0], text)] + rest)
  }

  /** A readable head in front of the entries of the other URLs gives the
      entries of all of them. */
  lemma ConsFetched(urls: seq<string>, fetch: string -> Response, text: string, rest: seq<(string, string)>)
    requires |urls| > 0 && fetch(urls[0]).body == Some(text)
    requires AllReadable(urls[1..], fetch) && Keys(rest) == urls[1..]
    requires forall k :: 0 <= k < |rest| ==> Some(rest[k].1) == fetch(urls[1..][k]).body
    ensures var r := [(urls[0], text)] + rest;
      && AllReadable(urls, fetch)
      && Keys(r) == urls
      && forall k :: 0 <= k < |r| ==> Some(r[k].1) == fetch(urls[k]).body
  {
    var r := [(urls[0], text)] + rest;
    forall k | 0 <= k < |urls| ensures fetch(urls[k]).body.Some? {
      if k > 0 {
        assert urls[k] == urls[1..][k - 1];
      }
    }
    forall k | 0 <= k < |r| ensures r[k].0 == urls[k] && Some(r[k].1) == fetch(urls[k]).body {
      if k > 0 {
        assert r[k] == rest[k - 1] && urls[k] == urls[1..][k - 1];
      }
    }
  }

  /** A first rejecting URL after a readable head is the first of the whole list. */
  lemma ShiftUnreadable(urls: seq<string>, fetch: string -> Response, url: string)
    requires |urls| > 0 && fetch(urls[0]).body.Some? && FirstUnreadable(urls[1..], fetch, url)
    ensures FirstUnreadable(urls, fetch, url) && !AllReadable(urls, fetch)
  {
    var k :| 0 <= k < |urls[1..]| && urls[1..][k] == url && fetch(url).body.None? && AllReadable(urls[1..][..k], fetch);
    assert urls[..k + 1] == [urls[0]] + urls[1..][..k];
    assert AllReadable(urls[..k + 1], fetch);
  }

  /** `getBundleScripts(pathname)`: the page at `https://roblox.com/<pathname>`
      is scanned, and the returned map has one entry per distinct bundle URL,
      in first-discovery order, holding that URL's text. The operation rejects
      with the URL whose `text()` rejects first: the page, or a bundle. The
      responses' status is never looked at. */
  function GetBundleScripts(pathname: string, fetch: string -> Response): (r: Result<seq<(string, string)>, string>)
    ensures fetch(PageRoot + pathname).body.None? ==> r == Failure(PageRoot + pathname)
    ensures fetch(PageRoot + pathname).body.Some? ==>
      var urls := Dedup(DiscoverUrls(fetch(PageRoot + pathname).body.value));
      && (r.Success? <==> AllReadable(urls, fetch))
      && (r.Failure? ==> FirstUnreadable(urls, fetch, r.error))
    ensures r.Success? ==>
      var discovered := DiscoverUrls(fetch(PageRoot + pathname).body.value);
      && DistinctKeys(r.value)
      && (forall u :: u in Keys(r.value) <==> u in discovered)
      && InFirstOccurrenceOrder(Keys(r.value), discovered)
      && forall k :: 0 <= k < |r.value| ==> IsBundleUrl(r.value[k].0) && Some(r.value[k].1) == fetch(r.value[k].0).body
  {
    match fetch(PageRoot + pathname).body
    case None => Failure(PageRoot + pathname)
    case Some(html) =>
      var discovered := DiscoverUrls(html);
      var urls := Dedup(discovered);
      DedupKeepsBundleUrls(discovered);
      FetchAll(urls, fetch)
  }

  /** The fetch oracle with every status replaced and every body kept. */
  function WithStatus(fetch: string -> Response, status: string -> bool): (f: string -> Response)
    ensures forall u :: f(u).body == fetch(u).body
  {
    u => Response(status(u), fetch(u).body)
  }

  /** The bundle loop reads only bodies: any statuses give the same result. */
  lemma {:induction false} FetchAllStatusIgnored(urls: seq<string>, fetch: string -> Response, status: string -> bool)
    ensures FetchAll(urls, WithStatus(fetch, status)) == FetchAll(urls, fetch)
    decreases |urls|
  {
    if |urls| > 0 {
      FetchAllStatusIgnored(urls[1..], fetch, status);
    }
  }

  /** `getBundleScripts` never checks `response.ok`: a page or bundle served
      with an error status is used like any other. */
  lemma StatusIgnored(pathname: string, fetch: string -> Response, status: string -> bool)
    ensures GetBundleScripts(pathname, WithStatus(fetch, status)) == GetBundleScripts(pathname, fetch)
  {
    var f := WithStatus(fetch, status);
    assert f(PageRoot + pathname).body == fetch(PageRoot + pathname).body;
    if fetch(PageRoot + pathname).body.Some? {
      FetchAllStatusIgnored(Dedup(DiscoverUrls(fetch(PageRoot + pathname).body.value)), fetch, status);
    }
  }
}

=== FILE: dist_writer.dfy ===
/** `writeBundlesToDist` (src/helpers/write-bundles-to-dist.ts): the three ways a
    bundle is written out (unmapped, map not JSON, map exploded into its
    original sources), the choice of the sources written, and the collision
    rule that keeps both contents when two sources land on one path.
    The output directory is a flat map from path to content; the URL parser,
    `JSON.parse` and `path.posix.join` are given as oracles. */
module DistWriter {
  import opened Wrappers
  import opened Text
  import opened PathSanitizer
  import opened MapReference

  const DistDir := "dist"
  const NotMappedDir := "not_mapped"

  /** The output tree: file contents by path, and the paths that exist but
      cannot be read back (for these `readFileIfExists` yields `null` while a
      write still succeeds). Directories are implicit. */
  datatype Disk = Disk(files: map<string, string>, unreadable: set<string>)

  /** The fields of a parsed source map the writer reads. `None` stands for a
      missing or `null` field or `sources` entry, and for a `sourcesContent`
      entry that is not a string. */
  datatype SourceMapJson = SourceMapJson(
    sources: Option<seq<Option<string>>>,
    sourcesContent: Option<seq<Option<string>>>,
    sourceRoot: Option<string>)

  /** The library functions the writer calls: `new URL(u).pathname` (`None`
      when the constructor throws), `JSON.parse` (`None` when it throws) and
      `path.posix.join`. */
  datatype Platform = Platform(
    urlPathname: string -> Option<string>,
    parseJson: string -> Option<SourceMapJson>,
    posixJoin: (string, string) -> string)

  // ---------------------------------------------------------------------------
  // The filesystem

  /** `readFileIfExists`: the content, or `null` when reading fails. */
  function ReadFileIfExists(d: Disk, p: string): (r: Option<string>)
    ensures r.Some? <==> p in d.files && p !in d.unreadable
    ensures r.Some? ==> r.value == d.files[p]
  {
    if p in d.files && p !in d.unreadable then Some(d.files[p]) else None
  }

  /** `writeFile(p, content)`: creates or overwrites `p` and nothing else. */
  function Write(d: Disk, p: string, content: string): (r: Disk)
    ensures r.files.Keys == d.files.Keys + {p} && r.files[p] == content
    ensures forall q :: q in d.files && q != p ==> r.files[q] == d.files[q]
    ensures r.unreadable == d.unreadable
  {
    d.(files := d.files[p := content])
  }

  /** `d'` is `d` with files added or overwritten, never removed. */
  predicate Grows(d: Disk, d': Disk) {
    d.files.Keys <= d'.files.Keys && d'.unreadable == d.unreadable
  }

  /** `path.join(distDir, name)` for a name that needs no normalisation. */
  function InDist(name: string): string {
    DistDir + "/" + name
  }

  // ---------------------------------------------------------------------------
  // path.parse and the sibling path

  /** `path.parse(p)` for a path that does not end in `/`: the directory, and the
      base name split into name and extension. */
  datatype ParsedPath = ParsedPath(dir: string, name: string, ext: string)

  /** The base name of `p`: what follows its last `/`. */
  function BaseName(p: string): (b: string)
    ensures '/' !in b && |b| <= |p|
    ensures b == p[|p| - |b|..]
    ensures |b| < |p| ==> p[|p| - |b| - 1] == '/'
  {
    match LastIndexOf(p, '/')
    case None => p
    case Some(i) => p[i + 1..]
  }

  /** The extension rule of `path.parse`: from the last dot of the base name,
      unless that dot is its first character or the base name is `..`. */
  function Extension(base: string): (ext: string)
    ensures |ext| <= |base| && ext == base[|base| - |ext|..]
    ensures ext == "" <==> '.' !in base || LastIndexOf(base, '.') == Some(0) || base == ".."
    ensures ext != "" ==> ext[0] == '.' && '.' !in ext[1..] && |ext| < |base|
  {
    match LastIndexOf(base, '.')
    case None => ""
    case Some(i) => if i == 0 || base == ".." then "" else base[i..]
  }

  function ParsePath(p: string): (r: ParsedPath)
    ensures r.name + r.ext == BaseName(p)
    ensures r.ext == Extension(BaseName(p))
    ensures LastIndexOf(p, '/').None? ==> r.dir == "" && p == BaseName(p)
    ensures LastIndexOf(p, '/') == Some(0) ==> r.dir == "/" && p == "/" + BaseName(p)
    ensures LastIndexOf(p, '/').Some? && LastIndexOf(p, '/').value > 0 ==> p == r.dir + "/" + BaseName(p)
  {
    var base := BaseName(p);
    var ext := Extension(base);
    ParsedPath(DirName(p), Stem(base, ext), ext)
  }

  /** What precedes a suffix `ext` of `base`. */
  function Stem(base: string, ext: string): (name: string)
    requires |ext| <= |base| && ext == base[|base| - |ext|..]
    ensures name + ext == base && name == base[..|base| - |ext|]
  {
    var name := base[..|base| - |ext|];
    assert name + ext == base;
    name
  }

  /** The `dir` of `path.parse`: what precedes the last `/`, or `/` itself when
      that is the first character. */
  function DirName(p: string): (dir: string)
    ensures LastIndexOf(p, '/').None? ==> dir == "" && p == BaseName(p)
    ensures LastIndexOf(p, '/') == Some(0) ==> dir == "/" && p == "/" + BaseName(p)
    ensures LastIndexOf(p, '/').Some? && LastIndexOf(p, '/').value > 0 ==> p == dir + "/" + BaseName(p)
  {
    var slash := LastIndexOf(p, '/');
    LastSlashSplits(p);
    if slash.None? then "" else if slash.value == 0 then "/" else p[..slash.value]
  }

  lemma LastSlashSplits(p: string)
    ensures LastIndexOf(p, '/').Some? ==> p == p[..LastIndexOf(p, '/').value] + "/" + BaseName(p)
  {
    var slash := LastIndexOf(p, '/');
    if slash.Some? {
      var i := slash.value;
      assert p == p[..i] + [p[i]] + p[i + 1..];
    }
  }

  /** `path.join(dir || ".", name)` for a normalised `dir`. */
  function JoinDir(dir: string, name: string): string {
    if dir == "" then name else if dir == "/" then "/" + name else dir + "/" + name
  }

  /** The path a colliding write goes to: `<dir>/<name>.<fileName><ext>`, that
      is, the new base name in the target's directory. */
  function SiblingPath(target: string, fileName: string): (r: string)
    ensures r == JoinDir(DirName(target), NewBaseName(BaseName(target), fileName))
  {
    var parsed := ParsePath(target);
    assert parsed.name == BaseName(target)[..|BaseName(target)| - |parsed.ext|];
    JoinDir(parsed.dir, parsed.name + "." + SanitizeFileName(fileName) + parsed.ext)
  }

  /** The base name of the sibling: `<name>.<fileName><ext>`. */
  function NewBaseName(base: string, fileName: string): (r: string)
    ensures |r| == |base| + 1 + |SanitizeFileName(fileName)|
    ensures var n := |base| - |Extension(base)|;
      && r[..n] == base[..n]
      && r[n] == '.'
      && r[n + 1..|r| - |Extension(base)|] == SanitizeFileName(fileName)
      && r[|r| - |Extension(base)|..] == Extension(base)
  {
    var ext := Extension(base);
    base[..|base| - |ext|] + "." + SanitizeFileName(fileName) + ext
  }

  /** The last dot of a string is the one at `i` when none follows it. */
  lemma LastDotAt(s: string, i: nat)
    requires i < |s| && s[i] == '.' && '.' !in s[i + 1..]
    ensures LastIndexOf(s, '.') == Some(i)
  {
  }

  /** A sibling keeps its target's extension, and the sanitised bundle name
      ends its stem: `a.ts` becomes `a.<bundle>.ts`. */
  lemma NewBaseNameKeepsExtension(base: string, fileName: string)
    requires '/' !in base && Extension(base) != ""
    ensures Extension(NewBaseName(base, fileName)) == Extension(base)
    ensures ParsePath(NewBaseName(base, fileName)).name
      == base[..|base| - |Extension(base)|] + "." + SanitizeFileName(fileName)
  {
    var ext := Extension(base);
    var r := NewBaseName(base, fileName);
    var d := |r| - |ext|;
    assert d > 0 && r[d..] == ext;
    assert r[d + 1..] == ext[1..];
    LastDotAt(r, d);
    assert Extension(r) == ext;
    NoSlashInNewBaseName(base, fileName);
    assert BaseName(r) == r;
  }

  lemma NoSlashInNewBaseName(base: string, fileName: string)
    requires '/' !in base
    ensures '/' !in NewBaseName(base, fileName)
  {
    var ext := Extension(base);
    var san := SanitizeFileName(fileName);
    assert '/' !in san;
    assert NewBaseName(base, fileName) == base[..|base| - |ext|] + "." + san + ext;
    assert '/' !in base[..|base| - |ext|] && '/' !in ext;
  }

  /** A relative path's sibling is a different path: one `.` and the sanitised
      bundle file name longer. */
  lemma SiblingIsLonger(target: string, fileName: string)
    requires |target| > 0 && target[0] != '/'
    ensures |SiblingPath(target, fileName)| == |target| + 1 + |SanitizeFileName(fileName)|
    ensures SiblingPath(target, fileName) != target
  {
    var base := BaseName(target);
    var dir := DirName(target);
    var nn := NewBaseName(base, fileName);
    match LastIndexOf(target, '/')
    case None =>
      assert JoinDir(dir, nn) == nn;
    case Some(i) =>
      if i > 0 {
        assert JoinDir(dir, nn) == dir + "/" + nn;
      }
  }

  // ---------------------------------------------------------------------------
  // Staying inside dist

  /** `p` is `dist` followed by one or more segments that lexical resolution
      keeps as they are. */
  predicate InsideDist(p: string) {
    var segs := Split(p, '/');
    |segs| >= 2 && segs[0] == DistDir && forall k :: 1 <= k < |segs| ==> IsContainedSegment(segs[k])
  }

  /** A path inside dist is already normal: resolving it changes nothing, so it
      neither climbs out of dist nor names dist itself. */
  lemma InsideDistResolves(p: string)
    requires InsideDist(p)
    ensures ResolveFrom([], Split(p, '/')) == Split(p, '/')
  {
    var segs := Split(p, '/');
    assert segs == [segs[0]] + segs[1..];
    var empty: seq<string> := [];
    assert empty + [segs[0]] == [segs[0]];
    assert ResolveFrom(empty, segs) == ResolveFrom([segs[0]], segs[1..]);
    ResolveContained([segs[0]], segs[1..]);
  }

  /** `path.join("dist", name)` for a relative path of contained segments. */
  lemma InDistInside(name: string)
    requires var segs := Split(name, '/'); forall k :: 0 <= k < |segs| ==> IsContainedSegment(segs[k])
    ensures InsideDist(InDist(name))
    ensures Split(InDist(name), '/') == [DistDir] + Split(name, '/')
  {
    SplitConcat(DistDir, name, '/');
    SplitWithoutSeparator(DistDir, '/');
  }

  lemma SafePathInside(rel: string)
    requires IsSafeRelativePath(rel)
    ensures InsideDist(InDist(rel))
  {
    var segs := Split(rel, '/');
    forall k | 0 <= k < |segs| ensures IsContainedSegment(segs[k]) {
      SafeSegmentKept(segs[k], 0);
    }
    InDistInside(rel);
  }

  lemma SegmentInside(seg: string)
    requires IsContainedSegment(seg) && '/' !in seg
    ensures InsideDist(InDist(seg))
  {
    SplitWithoutSeparator(seg, '/');
    InDistInside(seg);
  }

  /** The sibling of a path inside dist is inside dist, in the same directory. */
  lemma SiblingInsideDist(target: string, fileName: string)
    requires InsideDist(target) && fileName != ""
    ensures InsideDist(SiblingPath(target, fileName))
  {
    SiblingSegments(target, fileName);
    LastSegmentReplaced(target, SiblingPath(target, fileName), Split(DirName(target), '/'),
      BaseName(target), NewBaseName(BaseName(target), fileName));
  }

  /** Replacing the last segment of a path inside dist by a contained segment
      stays inside dist. */
  lemma LastSegmentReplaced(t: string, p: string, dirSegs: seq<string>, x: string, y: string)
    requires InsideDist(t) && IsContainedSegment(y)
    requires Split(t, '/') == dirSegs + [x] && Split(p, '/') == dirSegs + [y]
    ensures InsideDist(p)
  {
    var segs := Split(t, '/');
    var pSegs := Split(p, '/');
    forall k | 1 <= k < |pSegs| ensures IsContainedSegment(pSegs[k]) {
      if k < |dirSegs| {
        assert pSegs[k] == dirSegs[k] == segs[k];
      }
    }
  }

  /** The sibling replaces the last segment of a path inside dist by a contained
      one. */
  lemma SiblingSegments(target: string, fileName: string)
    requires InsideDist(target) && fileName != ""
    ensures IsContainedSegment(NewBaseName(BaseName(target), fileName))
    ensures Split(target, '/') == Split(DirName(target), '/') + [BaseName(target)]
    ensures Split(SiblingPath(target, fileName), '/') == Split(DirName(target), '/') + [NewBaseName(BaseName(target), fileName)]
  {
    DirOfInside(target);
    BaseNameContained(target);
    NewNameContained(BaseName(target), fileName);
    SplitDirJoin(DirName(target), NewBaseName(BaseName(target), fileName));
  }

  lemma BaseNameContained(target: string)
    requires InsideDist(target)
    requires Split(target, '/') == Split(DirName(target), '/') + [BaseName(target)]
    ensures IsContainedSegment(BaseName(target))
  {
    var segs := Split(target, '/');
    assert BaseName(target) == segs[|segs| - 1];
  }

  lemma SplitDirJoin(dir: string, name: string)
    requires dir != "" && dir != "/" && '/' !in name
    ensures Split(JoinDir(dir, name), '/') == Split(dir, '/') + [name]
  {
    SplitConcat(dir, name, '/');
    SplitWithoutSeparator(name, '/');
    assert JoinDir(dir, name) == dir + ['/'] + name;
  }

  /** A path inside dist has a directory part, itself starting with `dist`. */
  lemma DirOfInside(target: string)
    requires InsideDist(target)
    ensures var dir := DirName(target);
      && dir != "" && dir != "/"
      && Split(target, '/') == Split(dir, '/') + [BaseName(target)]
      && target == dir + "/" + BaseName(target)
  {
    var segs := Split(target, '/');
    if '/' !in target {
      SplitWithoutSeparator(target, '/');
    }
    var i := LastIndexOf(target, '/').value;
    var dir := target[..i];
    var base := BaseName(target);
    LastSlashSplits(target);
    SplitConcat(dir, base, '/');
    SplitWithoutSeparator(base, '/');
    assert segs == Split(dir, '/') + [base];
    assert Split("/", '/') == ["", ""];
  }

  /** The new base name `<name>.<fileName><ext>` of a contained base name is a
      contained segment. */
  lemma NewNameContained(base: string, fileName: string)
    requires IsContainedSegment(base) && '/' !in base && fileName != ""
    ensures IsContainedSegment(NewBaseName(base, fileName)) && '/' !in NewBaseName(base, fileName)
  {
    var ext := Extension(base);
    var name := base[..|base| - |ext|];
    var f := SanitizeFileName(fileName);
    assert NewBaseName(base, fileName) == name + "." + f + ext;
    assert |NewBaseName(base, fileName)| >= 3;
    NameCharsLackSlash(f);
    assert '/' !in name by {
      assert forall k :: 0 <= k < |name| ==> name[k] == base[k];
    }
  }



  // ---------------------------------------------------------------------------
  // The collision rule

  /** Where a source is written: the target itself when nothing readable is
      there or the same content is, the sibling when different content is. */
  function WritePath(d: Disk, target: string, content: string, fileName: string): (p: string)
    ensures ReadFileIfExists(d, target).None? ==> p == target
    ensures ReadFileIfExists(d, target) == Some(content) ==> p == target
    ensures ReadFileIfExists(d, target).Some? && ReadFileIfExists(d, target) != Some(content) ==>
      p == SiblingPath(target, fileName)
  {
    var existing := ReadFileIfExists(d, target);
    if existing.Some? && existing.value != content then SiblingPath(target, fileName) else target
  }

  /** The end of the source loop in `writeBundlesToDist`: write one source,
      under the collision rule. */
  function WriteSource(d: Disk, target: string, content: string, fileName: string): (r: Disk)
    ensures Grows(d, r)
    ensures r == Write(d, WritePath(d, target, content, fileName), content)
  {
    var p := WritePath(d, target, content, fileName);
    Write(d, p, content)
  }

  /** Writing the content a target already holds changes nothing. */
  lemma IdenticalWriteIsNoOp(d: Disk, target: string, content: string, fileName: string)
    requires ReadFileIfExists(d, target) == Some(content)
    ensures WriteSource(d, target, content, fileName) == d
  {
    assert d.files[target := content] == d.files;
  }

  /** Different content for an occupied relative target keeps both: the old file
      stays, the new content goes beside it. */
  lemma CollisionKeepsBoth(d: Disk, target: string, content: string, fileName: string)
    requires |target| > 0 && target[0] != '/'
    requires ReadFileIfExists(d, target).Some? && ReadFileIfExists(d, target) != Some(content)
    ensures var r := WriteSource(d, target, content, fileName);
      && SiblingPath(target, fileName) != target
      && r.files[target] == d.files[target]
      && r.files[SiblingPath(target, fileName)] == content
      && r.files.Keys == d.files.Keys + {SiblingPath(target, fileName)}
  {
    SiblingIsLonger(target, fileName);
  }

  /** Content `A` written to a fresh path, then different content `B` for the
      same path from another bundle: two files, both kept. */
  lemma CollisionScenario(target: string, a: string, b: string, first: string, second: string)
    requires |target| > 0 && target[0] != '/' && a != b
    ensures var d1 := WriteSource(Disk(map[], {}), target, a, first);
      var d2 := WriteSource(d1, target, b, second);
      d2.files == map[target := a, SiblingPath(target, second) := b]
  {
    SiblingIsLonger(target, second);
    var d0 := Disk(map[], {});
    var d1 := WriteSource(d0, target, a, first);
    assert WritePath(d0, target, a, first) == target;
    assert d1.files == map[target := a];
    CollisionWritesSibling(d1, target, b, second);
  }

  /** The sibling is not checked in turn: a third different content for the same
      target overwrites the second, so the disk ends as if the second had never
      been written. */
  lemma SecondCollisionOverwrites(d: Disk, target: string, b: string, c: string, fileName: string)
    requires |target| > 0 && target[0] != '/'
    requires ReadFileIfExists(d, target).Some? && ReadFileIfExists(d, target) != Some(b)
    requires ReadFileIfExists(d, target) != Some(c)
    ensures WriteSource(WriteSource(d, target, b, fileName), target, c, fileName)
         == Write(d, SiblingPath(target, fileName), c)
  {
    var sib := SiblingPath(target, fileName);
    SiblingDiffers(target, fileName);
    CollisionWritesSibling(d, target, b, fileName);
    var d1 := Write(d, sib, b);
    OtherWriteKeeps(d, sib, b, target);
    CollisionWritesSibling(d1, target, c, fileName);
    WriteTwice(d, sib, b, c);
  }

  lemma WriteTwice(d: Disk, p: string, b: string, c: string)
    ensures Write(Write(d, p, b), p, c) == Write(d, p, c)
  {
    assert d.files[p := b][p := c] == d.files[p := c];
  }

  lemma CollisionWritesSibling(d: Disk, target: string, content: string, fileName: string)
    requires ReadFileIfExists(d, target).Some? && ReadFileIfExists(d, target) != Some(content)
    ensures WriteSource(d, target, content, fileName) == Write(d, SiblingPath(target, fileName), content)
  {
  }

  lemma OtherWriteKeeps(d: Disk, p: string, content: string, q: string)
    requires p != q
    ensures ReadFileIfExists(Write(d, p, content), q) == ReadFileIfExists(d, q)
  {
  }

  lemma SiblingDiffers(target: string, fileName: string)
    requires |target| > 0 && target[0] != '/'
    ensures SiblingPath(target, fileName) != target
  {
    SiblingIsLonger(target, fileName);
  }

  // ---------------------------------------------------------------------------
  // Which sources are written

  /** `parsed.sources ?? []`. */
  function Sources(m: SourceMapJson): seq<Option<string>> {
    m.sources.GetOr([])
  }

  /** `sourcesContent[i]` when it is a non-empty string. */
  function SourceContent(m: SourceMapJson, i: nat): (r: Option<string>)
    ensures var contents := m.sourcesContent.GetOr([]);
      r.Some? <==> i < |contents| && contents[i].Some? && contents[i].value != ""
    ensures r.Some? ==> r == m.sourcesContent.GetOr([])[i] && r.value != ""
  {
    var contents := m.sourcesContent.GetOr([]);
    if i < |contents| && contents[i].Some? && contents[i].value != "" then contents[i] else None
  }

  /** The name given to a `null` source: `source_<i>.txt`. */
  function DefaultSourceName(i: nat): string {
    "source_" + Decimal(i) + ".txt"
  }

  /** The logical path of source `i`: under `sourceRoot` when that is a
      non-empty string. */
  function CombinedPath(m: SourceMapJson, posixJoin: (string, string) -> string, i: nat): (r: string)
    requires i < |Sources(m)|
    ensures m.sourceRoot.Some? && m.sourceRoot.value != "" ==>
      r == posixJoin(m.sourceRoot.value, Sources(m)[i].GetOr(DefaultSourceName(i)))
    ensures !(m.sourceRoot.Some? && m.sourceRoot.value != "") ==> r == Sources(m)[i].GetOr(DefaultSourceName(i))
  {
    var raw := Sources(m)[i].GetOr(DefaultSourceName(i));
    if m.sourceRoot.Some? && m.sourceRoot.value != "" then posixJoin(m.sourceRoot.value, raw) else raw
  }

  /** The target of source `i`, `None` when it is skipped: its content is not a
      non-empty string, or its path sanitises to nothing. */
  function SourceTarget(m: SourceMapJson, posixJoin: (string, string) -> string, i: nat): (r: Option<string>)
    requires i < |Sources(m)|
    ensures r.Some? <==> SourceContent(m, i).Some? && SanitizeRelativeSourcePath(CombinedPath(m, posixJoin, i)).Some?
    ensures r.Some? ==> r.value == InDist(SanitizeRelativeSourcePath(CombinedPath(m, posixJoin, i)).value)
    ensures r.Some? ==> InsideDist(r.value)
  {
    if SourceContent(m, i).None? then None
    else match SanitizeRelativeSourcePath(CombinedPath(m, posixJoin, i))
      case None => None
      case Some(rel) =>
        SanitizedPathIsSafe(CombinedPath(m, posixJoin, i));
        SafePathInside(rel);
        Some(InDist(rel))
  }

  /** What one pass of the loop does, once its source is looked at: nothing, or
      write `content` at `target` (or the target's sibling). */
  datatype Job = Skip | Emit(target: string, content: string)

  /** The pass for source `i`. Neither its target nor its content depends on
      the disk, so the passes can be listed before any of them runs. */
  function SourceJob(m: SourceMapJson, posixJoin: (string, string) -> string, i: nat): (job: Job)
    requires i < |Sources(m)|
    ensures job.Emit? <==> SourceTarget(m, posixJoin, i).Some?
    ensures job.Emit? ==> job.target == SourceTarget(m, posixJoin, i).value && job.content == SourceContent(m, i).value
  {
    match SourceTarget(m, posixJoin, i)
    case None => Skip
    case Some(target) => Emit(target, SourceContent(m, i).value)
  }

  /** One job per source, in the map's order. */
  function Jobs(m: SourceMapJson, posixJoin: (string, string) -> string): (jobs: seq<Job>)
    ensures |jobs| == |Sources(m)|
    ensures forall i :: 0 <= i < |jobs| ==> jobs[i] == SourceJob(m, posixJoin, i)
  {
    seq(|Sources(m)|, i requires 0 <= i < |Sources(m)| => SourceJob(m, posixJoin, i))
  }

  /** One pass of the source loop of `writeBundlesToDist`. */
  function RunJob(d: Disk, job: Job, fileName: string): (r: Disk)
    ensures Grows(d, r)
  {
    match job
    case Skip => d
    case Emit(target, content) => WriteSource(d, target, content, fileName)
  }

  /** The disk the loop leaves when its index reaches `k`. */
  function RunJobs(d: Disk, jobs: seq<Job>, fileName: string, k: nat): (r: Disk)
    requires k <= |jobs|
    ensures Grows(d, r)
    decreases k
  {
    if k == 0 then d else RunJob(RunJobs(d, jobs, fileName, k - 1), jobs[k - 1], fileName)
  }

  /** The source loop of `writeBundlesToDist`: every source of the map in turn. */
  function ExplodeSources(d: Disk, m: SourceMapJson, fileName: string, posixJoin: (string, string) -> string): (r: Disk)
    ensures Grows(d, r)
  {
    RunJobs(d, Jobs(m, posixJoin), fileName, |Sources(m)|)
  }

  /** `p` was created or given new content between `d` and `r`. */
  predicate Changed(d: Disk, r: Disk, p: string) {
    p in r.files && (p !in d.files || r.files[p] != d.files[p])
  }

  /** `p` is a path job `j` may write: it writes, and `p` is its target or the
      target's sibling. */
  predicate JobTouches(jobs: seq<Job>, fileName: string, j: nat, p: string) {
    j < |jobs| && jobs[j].Emit? && (p == jobs[j].target || p == SiblingPath(jobs[j].target, fileName))
  }

  /** What one pass creates or changes is its job's content, on a path the job
      may write. */
  lemma RunJobWrites(d: Disk, job: Job, fileName: string, p: string)
    requires Changed(d, RunJob(d, job, fileName), p)
    ensures job.Emit? && (p == job.target || p == SiblingPath(job.target, fileName))
    ensures RunJob(d, job, fileName).files[p] == job.content
  {
    if job.Emit? {
      var w := WritePath(d, job.target, job.content, fileName);
      assert RunJob(d, job, fileName) == Write(d, w, job.content);
      assert p == w;
    }
  }

  /** A path the first `k` passes create or change was written by one of them,
      with its job's content. */
  lemma {:induction false} ChangedByJob(d: Disk, jobs: seq<Job>, fileName: string, k: nat, p: string) returns (j: nat)
    requires k <= |jobs| && Changed(d, RunJobs(d, jobs, fileName, k), p)
    ensures j < k && JobTouches(jobs, fileName, j, p)
    ensures RunJobs(d, jobs, fileName, k).files[p] == jobs[j].content
    decreases k
  {
    if k == 0 {
      assert false;
    } else {
      var prev := RunJobs(d, jobs, fileName, k - 1);
      var r := RunJob(prev, jobs[k - 1], fileName);
      assert RunJobs(d, jobs, fileName, k) == r;
      if Changed(prev, r, p) {
        RunJobWrites(prev, jobs[k - 1], fileName, p);
        j := k - 1;
      } else {
        j := ChangedByJob(d, jobs, fileName, k - 1, p);
      }
    }
  }

  /** Source `k` is written, at `p` (its target or the target's sibling), with
      `content`. */
  predicate WrittenAt(m: SourceMapJson, posixJoin: (string, string) -> string, fileName: string,
                      k: nat, p: string, content: string) {
    && k < |Sources(m)|
    && SourceTarget(m, posixJoin, k).Some?
    && (p == SourceTarget(m, posixJoin, k).value || p == SiblingPath(SourceTarget(m, posixJoin, k).value, fileName))
    && content == SourceContent(m, k).value
  }

  /** Source `j` is selected and may write `p`: its target or the target's
      sibling. */
  predicate Touches(m: SourceMapJson, posixJoin: (string, string) -> string, fileName: string, j: nat, p: string) {
    && j < |Sources(m)|
    && SourceTarget(m, posixJoin, j).Some?
    && (p == SourceTarget(m, posixJoin, j).value || p == SiblingPath(SourceTarget(m, posixJoin, j).value, fileName))
  }

  /** A source's job may write exactly the paths the source may write, with
      the source's content. */
  lemma JobsTouches(m: SourceMapJson, posixJoin: (string, string) -> string, fileName: string, j: nat, p: string)
    requires j < |Sources(m)|
    ensures JobTouches(Jobs(m, posixJoin), fileName, j, p) <==> Touches(m, posixJoin, fileName, j, p)
    ensures JobTouches(Jobs(m, posixJoin), fileName, j, p) ==> Jobs(m, posixJoin)[j].content == SourceContent(m, j).value
  {
    assert Jobs(m, posixJoin)[j] == SourceJob(m, posixJoin, j);
  }

  /** Every file the loop creates or changes holds the content of a selected
      source, at that source's target or its sibling. */
  lemma ExplodeWritesSelected(d: Disk, m: SourceMapJson, fileName: string, posixJoin: (string, string) -> string)
    ensures var r := ExplodeSources(d, m, fileName, posixJoin);
      forall p :: Changed(d, r, p) ==> exists k: nat :: WrittenAt(m, posixJoin, fileName, k, p, r.files[p])
  {
    var jobs := Jobs(m, posixJoin);
    var r := ExplodeSources(d, m, fileName, posixJoin);
    assert r == RunJobs(d, jobs, fileName, |jobs|);
    forall p | Changed(d, r, p) ensures exists k: nat :: WrittenAt(m, posixJoin, fileName, k, p, r.files[p]) {
      var k := ChangedByJob(d, jobs, fileName, |jobs|, p);
      JobsTouches(m, posixJoin, fileName, k, p);
      assert WrittenAt(m, posixJoin, fileName, k, p, r.files[p]);
    }
  }

  /** No job with index from `j` up to, not including, `k` may write `p`. */
  ghost predicate UntouchedBetween(jobs: seq<Job>, fileName: string, j: nat, k: nat, p: string) {
    forall i :: j <= i < k ==> !JobTouches(jobs, fileName, i, p)
  }

  /** `p`, when it is a file of `d`, is still one in `r`, with the same content. */
  predicate Keeps(d: Disk, r: Disk, p: string) {
    p in d.files ==> p in r.files && r.files[p] == d.files[p]
  }

  /** One pass leaves alone a path that its job may not write. */
  lemma RunJobKeeps(d: Disk, job: Job, fileName: string, p: string)
    requires !(job.Emit? && (p == job.target || p == SiblingPath(job.target, fileName)))
    ensures Keeps(d, RunJob(d, job, fileName), p)
  {
    if job.Emit? {
      var w := WritePath(d, job.target, job.content, fileName);
      assert w == job.target || w == SiblingPath(job.target, fileName);
      assert w != p;
    }
  }

  lemma KeepsTransitive(d: Disk, d': Disk, r: Disk, p: string)
    requires Keeps(d, d', p) && Keeps(d', r, p)
    ensures Keeps(d, r, p)
  {
  }

  /** A path that no job from `j` up to `k` may write keeps its content through
      those passes. */
  lemma {:induction false} ExplodeFrame(d: Disk, jobs: seq<Job>, fileName: string, j: nat, k: nat, p: string)
    requires j <= k <= |jobs| && UntouchedBetween(jobs, fileName, j, k, p)
    ensures Keeps(RunJobs(d, jobs, fileName, j), RunJobs(d, jobs, fileName, k), p)
    decreases k
  {
    if j < k {
      var prev := RunJobs(d, jobs, fileName, k - 1);
      assert !JobTouches(jobs, fileName, k - 1, p);
      assert UntouchedBetween(jobs, fileName, j, k - 1, p);
      ExplodeFrame(d, jobs, fileName, j, k - 1, p);
      RunJobKeeps(prev, jobs[k - 1], fileName, p);
      KeepsTransitive(RunJobs(d, jobs, fileName, j), prev, RunJobs(d, jobs, fileName, k), p);
    }
  }

  /** The pass of a job that writes puts its content on a path the job may
      write. */
  lemma JobWritesTouched(d: Disk, jobs: seq<Job>, fileName: string, k: nat) returns (w: string)
    requires k < |jobs| && jobs[k].Emit?
    ensures JobTouches(jobs, fileName, k, w)
    ensures var r := RunJobs(d, jobs, fileName, k + 1); w in r.files && r.files[w] == jobs[k].content
  {
    var before := RunJobs(d, jobs, fileName, k);
    assert RunJobs(d, jobs, fileName, k + 1) == RunJob(before, jobs[k], fileName);
    w := WritePath(before, jobs[k].target, jobs[k].content, fileName);
    assert RunJob(before, jobs[k], fileName) == Write(before, w, jobs[k].content);
  }

  /** No selected source after `k` may write a path that source `k` may write. */
  ghost predicate LaterSourcesAvoid(m: SourceMapJson, posixJoin: (string, string) -> string, fileName: string, k: nat) {
    forall j, p :: k < j && Touches(m, posixJoin, fileName, k, p) ==> !Touches(m, posixJoin, fileName, j, p)
  }

  lemma LaterJobsAvoid(m: SourceMapJson, posixJoin: (string, string) -> string, fileName: string, k: nat, w: string)
    requires k < |Sources(m)| && JobTouches(Jobs(m, posixJoin), fileName, k, w)
    requires LaterSourcesAvoid(m, posixJoin, fileName, k)
    ensures UntouchedBetween(Jobs(m, posixJoin), fileName, k + 1, |Sources(m)|, w)
  {
    JobsTouches(m, posixJoin, fileName, k, w);
    forall i | k + 1 <= i < |Sources(m)| ensures !JobTouches(Jobs(m, posixJoin), fileName, i, w) {
      JobsTouches(m, posixJoin, fileName, i, w);
    }
  }

  /** `content` is at `t` or at its sibling in `r`. */
  predicate HeldAtTargetOrSibling(r: Disk, t: string, fileName: string, content: string) {
    (t in r.files && r.files[t] == content) || (SiblingPath(t, fileName) in r.files && r.files[SiblingPath(t, fileName)] == content)
  }

  lemma KeptIsHeld(a: Disk, r: Disk, w: string, t: string, fileName: string, content: string)
    requires w in a.files && a.files[w] == content && Keeps(a, r, w)
    requires w == t || w == SiblingPath(t, fileName)
    ensures HeldAtTargetOrSibling(r, t, fileName, content)
  {
  }

  lemma SelectedJob(m: SourceMapJson, posixJoin: (string, string) -> string, k: nat)
    requires k < |Sources(m)| && SourceTarget(m, posixJoin, k).Some?
    ensures Jobs(m, posixJoin)[k] == Emit(SourceTarget(m, posixJoin, k).value, SourceContent(m, k).value)
  {
    assert Jobs(m, posixJoin)[k] == SourceJob(m, posixJoin, k);
  }

  /** Every selected source is written: its content ends up at its target or at
      the target's sibling, unless a later selected source may write the same
      path. */
  lemma ExplodeWritesEverySelected(d: Disk, m: SourceMapJson, fileName: string, posixJoin: (string, string) -> string, k: nat)
    requires k < |Sources(m)| && SourceTarget(m, posixJoin, k).Some?
    requires LaterSourcesAvoid(m, posixJoin, fileName, k)
    ensures HeldAtTargetOrSibling(ExplodeSources(d, m, fileName, posixJoin), SourceTarget(m, posixJoin, k).value,
                                  fileName, SourceContent(m, k).value)
  {
    var jobs := Jobs(m, posixJoin);
    var n := |Sources(m)|;
    SelectedJob(m, posixJoin, k);
    var w := JobWritesTouched(d, jobs, fileName, k);
    LaterJobsAvoid(m, posixJoin, fileName, k, w);
    ExplodeFrame(d, jobs, fileName, k + 1, n, w);
    KeptIsHeld(RunJobs(d, jobs, fileName, k + 1), RunJobs(d, jobs, fileName, n), w, jobs[k].target, fileName, jobs[k].content);
  }

  /** Passes that all skip write nothing. */
  lemma {:induction false} SkipsWriteNothing(d: Disk, jobs: seq<Job>, fileName: string, k: nat)
    requires k <= |jobs| && forall j :: 0 <= j < k ==> jobs[j].Skip?
    ensures RunJobs(d, jobs, fileName, k) == d
    decreases k
  {
    if k > 0 {
      SkipsWriteNothing(d, jobs, fileName, k - 1);
    }
  }

  /** A map none of whose sources is selected leaves the disk unchanged. */
  lemma NothingSelectedNothingWritten(d: Disk, m: SourceMapJson, fileName: string, posixJoin: (string, string) -> string)
    requires forall j :: 0 <= j < |Sources(m)| ==> SourceTarget(m, posixJoin, j).None?
    ensures ExplodeSources(d, m, fileName, posixJoin) == d
  {
    var jobs := Jobs(m, posixJoin);
    forall j | 0 <= j < |jobs| ensures jobs[j].Skip? {
      assert jobs[j] == SourceJob(m, posixJoin, j);
    }
    SkipsWriteNothing(d, jobs, fileName, |jobs|);
  }

  /** Two sources, the second with `null` content, and no `sourceRoot`: only
      the first is written, at its own path under dist. */
  lemma OneOfTwoSourcesWritten(a: string, b: string, x: string, fileName: string, posixJoin: (string, string) -> string)
    requires IsSafeRelativePath(a) && x != ""
    ensures var m := SourceMapJson(Some([Some(a), Some(b)]), Some([Some(x), None]), None);
      ExplodeSources(Disk(map[], {}), m, fileName, posixJoin).files == map[InDist(a) := x]
  {
    var m := SourceMapJson(Some([Some(a), Some(b)]), Some([Some(x), None]), None);
    var d0 := Disk(map[], {});
    assert SourceContent(m, 0) == Some(x);
    assert CombinedPath(m, posixJoin, 0) == a;
    SafeSourceTarget(m, posixJoin, 0, a);
    assert SourceContent(m, 1).None?;
    var jobs := Jobs(m, posixJoin);
    assert jobs[0] == SourceJob(m, posixJoin, 0) == Emit(InDist(a), x);
    assert jobs[1] == SourceJob(m, posixJoin, 1) == Skip;
    var d1 := WriteSource(d0, InDist(a), x, fileName);
    assert d1.files == map[InDist(a) := x];
    assert RunJobs(d0, jobs, fileName, 1) == RunJob(d0, jobs[0], fileName) == d1;
    assert RunJobs(d0, jobs, fileName, 2) == RunJob(d1, jobs[1], fileName) == d1;
  }

  /** A source whose logical path is already safe is written at exactly that
      path under dist. */
  lemma SafeSourceTarget(m: SourceMapJson, posixJoin: (string, string) -> string, i: nat, rel: string)
    requires i < |Sources(m)| && SourceContent(m, i).Some?
    requires CombinedPath(m, posixJoin, i) == rel && IsSafeRelativePath(rel)
    ensures SourceTarget(m, posixJoin, i) == Some(InDist(rel))
  {
    SanitizeRelativeSourcePathIdempotent(rel);
  }

  // ---------------------------------------------------------------------------
  // One bundle

  /** `params.sourceMaps.get(url)`, with `undefined` as the empty string: both
      are falsy. */
  function MapText(sourceMaps: map<string, string>, url: string): string {
    if url in sourceMaps then sourceMaps[url] else ""
  }

  function NotMappedPath(fileName: string): string {
    InDist(NotMappedDir + "/" + fileName)
  }

  function MapFileName(fileName: string): string {
    fileName + ".map"
  }

  /** The file name a bundle is written under. */
  function FileNameOf(url: string, platform: Platform): string {
    BundleFileName(platform.urlPathname(url))
  }

  /** The body of the bundle loop of `writeBundlesToDist`, for one bundle. */
  function WriteBundle(d: Disk, url: string, text: string, sourceMaps: map<string, string>, platform: Platform): (r: Disk)
    ensures Grows(d, r)
  {
    var fileName := FileNameOf(url, platform);
    var mapText := MapText(sourceMaps, url);
    if mapText == "" then Write(d, NotMappedPath(fileName), text)
    else match platform.parseJson(mapText)
      case None =>
        var mapFile := MapFileName(fileName);
        Write(Write(d, InDist(mapFile), mapText), InDist(fileName), ApplySourceMapFileReference(text, mapFile))
      case Some(m) => ExplodeSources(d, m, fileName, platform.posixJoin)
  }

  /** A bundle without a map is copied verbatim to `dist/not_mapped/` and nothing
      else is touched. */
  lemma UnmappedBundle(d: Disk, url: string, text: string, sourceMaps: map<string, string>, platform: Platform)
    requires url !in sourceMaps || sourceMaps[url] == ""
    ensures var r := WriteBundle(d, url, text, sourceMaps, platform);
      var p := NotMappedPath(FileNameOf(url, platform));
      && r.files[p] == text
      && r.files.Keys == d.files.Keys + {p}
      && forall q :: q in d.files && q != p ==> r.files[q] == d.files[q]
  {
  }

  /** A map that is not JSON is written raw beside the bundle, and the bundle
      with its reference comment pointing at that file: two files, nothing else. */
  lemma UnparseableMapBundle(d: Disk, url: string, text: string, sourceMaps: map<string, string>, platform: Platform)
    requires url in sourceMaps && sourceMaps[url] != ""
    requires platform.parseJson(sourceMaps[url]).None?
    ensures var r := WriteBundle(d, url, text, sourceMaps, platform);
      var fileName := FileNameOf(url, platform);
      var mapPath := InDist(MapFileName(fileName));
      var bundlePath := InDist(fileName);
      && mapPath != bundlePath
      && r.files[mapPath] == sourceMaps[url]
      && r.files[bundlePath] == ApplySourceMapFileReference(text, MapFileName(fileName))
      && r.files.Keys == d.files.Keys + {mapPath, bundlePath}
      && forall q :: q in d.files && q != mapPath && q != bundlePath ==> r.files[q] == d.files[q]
  {
    var fileName := FileNameOf(url, platform);
    assert |InDist(MapFileName(fileName))| == |InDist(fileName)| + 4;
  }

  /** A map that parses: only its selected sources are written, and the bundle
      itself is not. */
  lemma ParsedMapBundle(d: Disk, url: string, text: string, sourceMaps: map<string, string>, platform: Platform, m: SourceMapJson)
    requires url in sourceMaps && sourceMaps[url] != ""
    requires platform.parseJson(sourceMaps[url]) == Some(m)
    ensures var r := WriteBundle(d, url, text, sourceMaps, platform);
      forall p :: Changed(d, r, p) ==>
        exists k :: WrittenAt(m, platform.posixJoin, FileNameOf(url, platform), k, p, r.files[p])
  {
    ExplodeWritesSelected(d, m, FileNameOf(url, platform), platform.posixJoin);
    assert WriteBundle(d, url, text, sourceMaps, platform) == ExplodeSources(d, m, FileNameOf(url, platform), platform.posixJoin);
  }

  // ---------------------------------------------------------------------------
  // All bundles

  /** `writeBundlesToDist`: the bundles in insertion order, each written on top
      of what the ones before it left. */
  function WriteBundlesToDist(d: Disk, bundles: seq<(string, string)>, sourceMaps: map<string, string>, platform: Platform): (r: Disk)
    ensures Grows(d, r)
    decreases |bundles|
  {
    if |bundles| == 0 then d
    else WriteBundlesToDist(WriteBundle(d, bundles[0].0, bundles[0].1, sourceMaps, platform), bundles[1..], sourceMaps, platform)
  }

  /** The URL parser removes `.` and `..` segments from a pathname. */
  ghost predicate NormalPathnames(platform: Platform) {
    forall u :: platform.urlPathname(u).Some? ==>
      var segs := Split(platform.urlPathname(u).value, '/');
      forall k :: 0 <= k < |segs| ==> segs[k] != "." && segs[k] != ".."
  }

  /** Every changed path between `d` and `r` lies inside dist. */
  ghost predicate ChangesInsideDist(d: Disk, r: Disk) {
    forall p :: Changed(d, r, p) ==> InsideDist(p)
  }

  /** Under a URL parser that removes dot segments, a bundle file name is one
      contained segment. */
  lemma FileNameContained(url: string, platform: Platform)
    requires NormalPathnames(platform)
    ensures IsContainedSegment(FileNameOf(url, platform)) && '/' !in FileNameOf(url, platform)
  {
    var pathname := platform.urlPathname(url);
    var f := FileNameOf(url, platform);
    BundleFileNameIsSegment(pathname);
  }

  /** The three paths a bundle's own files go to lie inside dist. */
  lemma BundlePathsInside(f: string)
    requires IsContainedSegment(f) && '/' !in f
    ensures InsideDist(InDist(f)) && InsideDist(InDist(MapFileName(f))) && InsideDist(NotMappedPath(f))
  {
    SegmentInside(f);
    MapFileInside(f);
    NotMappedInside(f);
  }

  lemma MapFileInside(f: string)
    requires '/' !in f
    ensures InsideDist(InDist(MapFileName(f)))
  {
    var mf := MapFileName(f);
    assert mf[|f|..] == ".map";
    assert '/' !in mf by {
      assert forall k :: 0 <= k < |mf| ==> mf[k] == if k < |f| then f[k] else ".map"[k - |f|];
    }
    SegmentInside(mf);
  }

  lemma NotMappedInside(f: string)
    requires IsContainedSegment(f) && '/' !in f
    ensures InsideDist(NotMappedPath(f))
  {
    TwoSegmentsInside(NotMappedDir, f);
  }

  lemma TwoSegmentsInside(a: string, f: string)
    requires IsContainedSegment(a) && '/' !in a
    requires IsContainedSegment(f) && '/' !in f
    ensures InsideDist(InDist(a + "/" + f))
  {
    SplitConcat(a, f, '/');
    SplitWithoutSeparator(a, '/');
    SplitWithoutSeparator(f, '/');
    InDistInside(a + "/" + f);
  }

  /** Every file a parsed map's sources create or change is inside dist. */
  lemma ExplodeInsideDist(d: Disk, m: SourceMapJson, fileName: string, posixJoin: (string, string) -> string)
    requires fileName != ""
    ensures ChangesInsideDist(d, ExplodeSources(d, m, fileName, posixJoin))
  {
    var r := ExplodeSources(d, m, fileName, posixJoin);
    ExplodeWritesSelected(d, m, fileName, posixJoin);
    forall p | Changed(d, r, p) ensures InsideDist(p) {
      var k: nat :| k < |Sources(m)| && WrittenAt(m, posixJoin, fileName, k, p, r.files[p]);
      var t := SourceTarget(m, posixJoin, k).value;
      if p != t {
        SiblingInsideDist(t, fileName);
      }
    }
  }

  /** Whatever branch a bundle takes, everything it writes is inside dist. */
  lemma WriteBundleInsideDist(d: Disk, url: string, text: string, sourceMaps: map<string, string>, platform: Platform)
    requires NormalPathnames(platform)
    ensures ChangesInsideDist(d, WriteBundle(d, url, text, sourceMaps, platform))
  {
    var f := FileNameOf(url, platform);
    FileNameContained(url, platform);
    BundlePathsInside(f);
    var mapText := MapText(sourceMaps, url);
    if mapText != "" && platform.parseJson(mapText).Some? {
      ExplodeInsideDist(d, platform.parseJson(mapText).value, f, platform.posixJoin);
    }
  }

  /** The writer never touches a path outside dist, and never removes a file. */
  lemma {:induction false} WriteBundlesToDistInsideDist(d: Disk, bundles: seq<(string, string)>, sourceMaps: map<string, string>, platform: Platform)
    requires NormalPathnames(platform)
    ensures ChangesInsideDist(d, WriteBundlesToDist(d, bundles, sourceMaps, platform))
    ensures d.files.Keys <= WriteBundlesToDist(d, bundles, sourceMaps, platform).files.Keys
    decreases |bundles|
  {
    if |bundles| > 0 {
      var mid := WriteBundle(d, bundles[0].0, bundles[0].1, sourceMaps, platform);
      var r := WriteBundlesToDist(d, bundles, sourceMaps, platform);
      assert r == WriteBundlesToDist(mid, bundles[1..], sourceMaps, platform);
      WriteBundleInsideDist(d, bundles[0].0, bundles[0].1, sourceMaps, platform);
      WriteBundlesToDistInsideDist(mid, bundles[1..], sourceMaps, platform);
      forall p | Changed(d, r, p) ensures InsideDist(p) {
        if !Changed(mid, r, p) {
          assert Changed(d, mid, p);
        }
      }
    }
  }
}

=== FILE: http.dfy ===
/** The `fetch` the downloader calls, as a deterministic oracle from URL to
    response. A network error thrown by `fetch` itself is not modelled. */
module Http {
  import opened Wrappers

  /** An HTTP response: its status flag and the outcome of `text()`, `None`
      when reading the body rejects. */
  datatype Response = Response(ok: bool, body: Option<string>)
}

=== FILE: literal_pattern.dfy ===
/** The regular expressions `/\/\/# sourceMappingURL=(.+\.map)/` and
    `/https:\/\/js\.rbxcdn\.com\/.+\.js/g` both have the shape `P.+S` with
    literal `P` and `S`. This module gives that shape's JavaScript semantics
    once: `exec` returns the match with the leftmost start and, for that start,
    the longest `.+` (greedy, backtracking only as far as needed for `S`);
    `.` matches anything but a line terminator; a global scan resumes at the end
    of each match. Each matcher is a search function proved equal to a
    declarative description of the match. */
module LiteralPattern {
  import opened Wrappers
  import opened Text

  /** `sfx` ends exactly at index `e` of `s`. */
  predicate EndsAt(s: string, sfx: string, e: int) {
    |sfx| <= e <= |s| && s[e - |sfx|..e] == sfx
  }

  /** `P.+S` matches exactly `s[i..e]`. */
  ghost predicate MatchAt(s: string, p: string, sfx: string, i: int, e: int) {
    && HasAt(s, i, p)
    && i + |p| + 1 + |sfx| <= e
    && EndsAt(s, sfx, e)
    && NoLineTerminator(s, i + |p|, e - |sfx|)
  }

  /** No match starts at or after `from`. */
  ghost predicate NoMatchFrom(s: string, p: string, sfx: string, from: int) {
    forall i, e :: from <= i ==> !MatchAt(s, p, sfx, i, e)
  }

  /** `s[i..e]` is what `exec` returns when searching from `from`: the leftmost
      start at or after `from`, and the longest match from that start. */
  ghost predicate IsFirstMatch(s: string, p: string, sfx: string, from: int, i: int, e: int) {
    && from <= i
    && MatchAt(s, p, sfx, i, e)
    && (forall i', e' :: from <= i' < i ==> !MatchAt(s, p, sfx, i', e'))
    && (forall e' :: MatchAt(s, p, sfx, i, e') ==> e' <= e)
  }

  /** The end of the line `j` is on: the first line terminator at or after `j`. */
  function LineEnd(s: string, j: nat): (r: nat)
    requires j <= |s|
    ensures j <= r <= |s|
    ensures NoLineTerminator(s, j, r)
    ensures r == |s| || IsLineTerminator(s[r])
    decreases |s| - j
  {
    if j < |s| && !IsLineTerminator(s[j]) then LineEnd(s, j + 1) else j
  }

  /** The backtracking of `.+S` from `lo`: the largest end `e <= hi` at which `S`
      ends with at least one character between `lo` and it. */
  function LastSuffixEnd(s: string, sfx: string, lo: nat, hi: nat): (r: Option<nat>)
    requires hi <= |s|
    ensures r.Some? ==> lo + 1 + |sfx| <= r.value <= hi && EndsAt(s, sfx, r.value)
    ensures r.Some? ==> forall e :: r.value < e <= hi ==> !EndsAt(s, sfx, e)
    ensures r.None? ==> forall e :: lo + 1 + |sfx| <= e <= hi ==> !EndsAt(s, sfx, e)
    decreases hi
  {
    if hi < lo + 1 + |sfx| then None
    else if EndsAt(s, sfx, hi) then Some(hi)
    else LastSuffixEnd(s, sfx, lo, hi - 1)
  }

  /** The end of the longest match starting at `i`, if any. */
  function GreedyEnd(s: string, p: string, sfx: string, i: nat): (r: Option<nat>)
    requires HasAt(s, i, p)
    ensures r.Some? ==> MatchAt(s, p, sfx, i, r.value)
    ensures r.Some? ==> forall e :: MatchAt(s, p, sfx, i, e) ==> e <= r.value
    ensures r.None? ==> forall e :: !MatchAt(s, p, sfx, i, e)
  {
    var j := i + |p|;
    var lineEnd := LineEnd(s, j);
    var hi := if lineEnd + |sfx| <= |s| then lineEnd + |sfx| else |s|;
    var r := LastSuffixEnd(s, sfx, j, hi);
    r
  }

  /** `exec` from index `from`. */
  function FirstMatch(s: string, p: string, sfx: string, from: nat): (r: Option<(nat, nat)>)
    ensures r.Some? ==> IsFirstMatch(s, p, sfx, from, r.value.0, r.value.1)
    ensures r.None? ==> NoMatchFrom(s, p, sfx, from)
    decreases |s| - from
  {
    if from + |p| > |s| then None
    else if HasAt(s, from, p) && GreedyEnd(s, p, sfx, from).Some? then
      Some((from, GreedyEnd(s, p, sfx, from).value))
    else FirstMatch(s, p, sfx, from + 1)
  }

  /** The description of `exec` determines its answer. */
  lemma FirstMatchUnique(s: string, p: string, sfx: string, from: int, i: int, e: int, i': int, e': int)
    requires IsFirstMatch(s, p, sfx, from, i, e) && IsFirstMatch(s, p, sfx, from, i', e')
    ensures i == i' && e == e'
  {
  }

  /** `e` ends its line: it is the end of `s` or a line terminator. */
  predicate EndsLine(s: string, e: int) {
    e == |s| || (0 <= e < |s| && IsLineTerminator(s[e]))
  }

  /** A match written at `i` as `p` then `u` (one line, ending in `sfx`), at the
      end of its line, is the longest match starting at `i`. */
  lemma WrittenMatch(s: string, p: string, sfx: string, i: nat, u: string)
    requires HasAt(s, i, p + u) && EndsLine(s, i + |p| + |u|)
    requires |u| >= 1 + |sfx| && u[|u| - |sfx|..] == sfx
    requires NoLineTerminator(u, 0, |u|)
    ensures var e := i + |p| + |u|;
      && MatchAt(s, p, sfx, i, e)
      && s[i + |p|..e] == u
      && forall e' :: MatchAt(s, p, sfx, i, e') ==> e' <= e
  {
    var w := p + u;
    var j := i + |p|;
    var e := j + |u|;
    assert s[i..i + |w|] == w;
    assert s[i..j] == w[..|p|] == p;
    assert s[j..e] == w[|p|..] == u;
    assert EndsAt(s, sfx, e) by {
      assert s[e - |sfx|..e] == u[|u| - |sfx|..];
    }
    assert NoLineTerminator(s, j, e - |sfx|) by {
      forall k | j <= k < e - |sfx| ensures !IsLineTerminator(s[k]) {
        assert s[k] == u[k - j];
      }
    }
    assert NoLineTerminator(sfx, 0, |sfx|) by {
      forall k | 0 <= k < |sfx| ensures !IsLineTerminator(sfx[k]) {
        assert sfx[k] == u[|u| - |sfx| + k];
      }
    }
    forall e' | MatchAt(s, p, sfx, i, e') ensures e' <= e {
      LineEndBoundsMatch(s, p, sfx, i, e, e');
    }
  }

  /** No match from `i` runs past the end of the line at `e`, when `sfx` holds
      no line terminator. */
  lemma LineEndBoundsMatch(s: string, p: string, sfx: string, i: nat, e: nat, e': int)
    requires EndsLine(s, e) && i + |p| <= e && NoLineTerminator(sfx, 0, |sfx|)
    requires MatchAt(s, p, sfx, i, e')
    ensures e' <= e
  {
    MatchStaysOnLine(s, p, sfx, i, e');
  }

  /** A match after `p` holds no line terminator, when `sfx` holds none. */
  lemma MatchStaysOnLine(s: string, p: string, sfx: string, i: nat, e: int)
    requires MatchAt(s, p, sfx, i, e) && NoLineTerminator(sfx, 0, |sfx|)
    ensures NoLineTerminator(s, i + |p|, e)
  {
    forall k | i + |p| <= k < e ensures !IsLineTerminator(s[k]) {
      if k >= e - |sfx| {
        assert s[k] == s[e - |sfx|..e][k - (e - |sfx|)] == sfx[k - (e - |sfx|)];
      }
    }
  }

  /** With no `p` before `i`, a written match at `i` ending its line is what
      `exec` finds. */
  lemma WrittenFirstMatch(s: string, p: string, sfx: string, i: nat, u: string)
    requires HasAt(s, i, p + u) && EndsLine(s, i + |p| + |u|)
    requires forall k :: 0 <= k < i ==> !HasAt(s, k, p)
    requires |u| >= 1 + |sfx| && u[|u| - |sfx|..] == sfx
    requires NoLineTerminator(u, 0, |u|)
    ensures FirstMatch(s, p, sfx, 0) == Some((i, i + |p| + |u|)) && s[i + |p|..i + |p| + |u|] == u
  {
    WrittenMatch(s, p, sfx, i, u);
    var e := i + |p| + |u|;
    assert IsFirstMatch(s, p, sfx, 0, i, e);
    var r := FirstMatch(s, p, sfx, 0);
    assert r.Some?;
    FirstMatchUnique(s, p, sfx, 0, i, e, r.value.0, r.value.1);
  }

  /** The matches a global `exec` loop finds from `from`, in order: each is the
      first match at or after the end of the one before, and after the last
      there is none. */
  ghost predicate IsScan(s: string, p: string, sfx: string, from: int, spans: seq<(nat, nat)>)
    decreases |spans|
  {
    if |spans| == 0 then NoMatchFrom(s, p, sfx, from)
    else IsFirstMatch(s, p, sfx, from, spans[0].0, spans[0].1) && IsScan(s, p, sfx, spans[0].1, spans[1..])
  }

  /** The `while ((match = re.exec(s)) !== null)` loop of a global regex. */
  function ScanFrom(s: string, p: string, sfx: string, from: nat): (spans: seq<(nat, nat)>)
    ensures IsScan(s, p, sfx, from, spans)
    decreases |s| - from
  {
    match FirstMatch(s, p, sfx, from)
    case None => []
    case Some((i, e)) => [(i, e)] + ScanFrom(s, p, sfx, e)
  }

  /** The description of the scan determines its answer. */
  lemma {:induction false} ScanUnique(s: string, p: string, sfx: string, from: int, a: seq<(nat, nat)>, b: seq<(nat, nat)>)
    requires IsScan(s, p, sfx, from, a) && IsScan(s, p, sfx, from, b)
    ensures a == b
    decreases |a|
  {
    if |a| > 0 && |b| > 0 {
      FirstMatchUnique(s, p, sfx, from, a[0].0, a[0].1, b[0].0, b[0].1);
      ScanUnique(s, p, sfx, a[0].1, a[1..], b[1..]);
      assert a == [a[0]] + a[1..] && b == [b[0]] + b[1..];
    }
  }

  /** Scan matches are matches, at or after `from`, left to right and
      non-overlapping. */
  lemma {:induction false} ScanOrdered(s: string, p: string, sfx: string, from: int, spans: seq<(nat, nat)>)
    requires IsScan(s, p, sfx, from, spans)
    ensures forall k :: 0 <= k < |spans| ==> from <= spans[k].0 && MatchAt(s, p, sfx, spans[k].0, spans[k].1)
    ensures forall k :: 0 <= k < |spans| - 1 ==> spans[k].1 <= spans[k + 1].0
    decreases |spans|
  {
    if |spans| > 0 {
      ScanOrdered(s, p, sfx, spans[0].1, spans[1..]);
      forall k | 0 <= k < |spans| ensures from <= spans[k].0 && MatchAt(s, p, sfx, spans[k].0, spans[k].1) {
        if k > 0 {
          assert spans[k] == spans[1..][k - 1];
        }
      }
      forall k | 0 <= k < |spans| - 1 ensures spans[k].1 <= spans[k + 1].0 {
        assert spans[k + 1] == spans[1..][k];
        if k > 0 {
          assert spans[k] == spans[1..][k - 1];
        }
      }
    }
  }
}

=== FILE: map_reference.dfy ===
/** `applySourceMapFileReference` (src/helpers/write-bundles-to-dist.ts): remove
    every existing source-map link comment from a bundle, trim the end, and
    append one fresh `//# sourceMappingURL=<name>` line, following the
    link-comment convention of section "Linking generated code to source maps"
    of Source Map Revision 3.

    The two regular expressions of the source are modelled line by line, with
    lines split at `\n` only: a line is removed (left empty) when, after leading
    white space, it is a `//#` comment or a `/*# ... */` comment naming
    `sourceMappingURL=`. This approximates the regular expressions in four
    ways: their leading `^\s*` may also swallow blank lines above the comment;
    `\s*` after the `#` and the dot-all `.*?` of the block form may run across
    lines; the block form's trailing `\s*$` also swallows the blank lines below
    the comment, up to the last line terminator before further text; and `\r`,
    U+2028 and U+2029 also end a line for `^` and `$`. */
module MapReference {
  import opened Text

  const Marker := "sourceMappingURL="
  const LinePrefix := "//# sourceMappingURL="

  /** The first index at or after `i` that is not white space. */
  function SkipSpaces(l: string, i: nat): (j: nat)
    requires i <= |l|
    ensures i <= j <= |l|
    ensures forall k :: i <= k < j ==> IsSpace(l[k])
    ensures j == |l| || !IsSpace(l[j])
    decreases |l| - i
  {
    if i < |l| && IsSpace(l[i]) then SkipSpaces(l, i + 1) else i
  }

  /** A whole line matched by `^\s*\/\/\#\s*sourceMappingURL=.*$`. */
  predicate IsLineReference(l: string) {
    var j := SkipSpaces(l, 0);
    HasAt(l, j, "//#") && HasAt(l, SkipSpaces(l, j + 3), Marker)
  }

  /** A whole line matched by `^\s*\/\*#\s*sourceMappingURL=.*?\*\/\s*$`: after
      the marker, a closing star-slash followed by nothing but white space. */
  predicate IsBlockReference(l: string) {
    var j := SkipSpaces(l, 0);
    HasAt(l, j, "/*#") &&
    var k := SkipSpaces(l, j + 3);
    HasAt(l, k, Marker) &&
    var t := TrimEnd(l);
    |t| >= k + |Marker| + 2 && t[|t| - 2..] == "*/"
  }

  predicate IsReference(l: string) {
    IsLineReference(l) || IsBlockReference(l)
  }

  /** The two `replace` calls: every reference line becomes empty. */
  function BlankReferences(lines: seq<string>): (r: seq<string>)
    ensures |r| == |lines|
    ensures forall k :: 0 <= k < |lines| ==> r[k] == (if IsReference(lines[k]) then "" else lines[k])
  {
    seq(|lines|, k requires 0 <= k < |lines| => if IsReference(lines[k]) then "" else lines[k])
  }

  /** Both `replace` calls: the lines of the result are the lines of `text`,
      with every reference line emptied and every other line kept. */
  function StripReferences(text: string): (r: string)
    ensures Split(r, '\n') == BlankReferences(Split(text, '\n'))
  {
    var blanked := BlankReferences(Split(text, '\n'));
    SplitPiecesLackSeparator(text, '\n');
    SplitJoin(blanked, '\n');
    Join(blanked, '\n')
  }

  /** No line of `text` is a source-map reference. */
  predicate NoReferences(text: string) {
    var lines := Split(text, '\n');
    forall k :: 0 <= k < |lines| ==> !IsReference(lines[k])
  }

  /** What `applySourceMapFileReference` appends after the trimmed text. */
  function ReferenceTail(name: string): string {
    "\n" + LinePrefix + name + "\n"
  }

  /** `applySourceMapFileReference(bundleText, name)`: the output ends with the
      fresh reference, and what stands before it ends in no white space and
      holds no reference line. */
  function ApplySourceMapFileReference(text: string, name: string): (r: string)
    ensures |r| >= |ReferenceTail(name)| && r[|r| - |ReferenceTail(name)|..] == ReferenceTail(name)
    ensures var body := r[..|r| - |ReferenceTail(name)|];
      (|body| == 0 || !IsSpace(body[|body| - 1])) && NoReferences(body)
    ensures r[..|r| - |ReferenceTail(name)|] == TrimEnd(StripReferences(text))
  {
    var body := TrimEnd(StripReferences(text));
    StrippedHasNoReferences(text);
    ConcatParts(body, ReferenceTail(name));
    body + ReferenceTail(name)
  }

  lemma ConcatParts(a: string, b: string)
    ensures |a + b| - |b| == |a|
    ensures (a + b)[..|a|] == a && (a + b)[|a|..] == b
  {
  }

  /** `applyInlineSourceMap`: the older name, now the same operation, so its
      output also ends with the fresh reference after a trimmed body that holds
      no reference line. */
  function ApplyInlineSourceMap(text: string, mapFileName: string): (r: string)
    ensures |r| >= |ReferenceTail(mapFileName)| && r[|r| - |ReferenceTail(mapFileName)|..] == ReferenceTail(mapFileName)
    ensures var body := r[..|r| - |ReferenceTail(mapFileName)|];
      (|body| == 0 || !IsSpace(body[|body| - 1])) && NoReferences(body)
    ensures r[..|r| - |ReferenceTail(mapFileName)|] == TrimEnd(StripReferences(text))
  {
    var r := ApplySourceMapFileReference(text, mapFileName);
    assert r[..|r| - |ReferenceTail(mapFileName)|] == TrimEnd(StripReferences(text));
    r
  }

  // ---------------------------------------------------------------------------
  // Lemmas

  /** Blanking twice is blanking once, and lines without a reference are left
      as they are. */
  lemma BlankReferencesIdempotent(lines: seq<string>)
    ensures BlankReferences(BlankReferences(lines)) == BlankReferences(lines)
    ensures (forall k :: 0 <= k < |lines| ==> !IsReference(lines[k])) ==> BlankReferences(lines) == lines
  {
    EmptyIsNotReference();
  }

  lemma EmptyIsNotReference()
    ensures !IsReference("")
  {
  }

  lemma ReferenceLineIsReference(name: string)
    ensures IsLineReference(LinePrefix + name)
  {
    var l := LinePrefix + name;
    assert l[0] == '/' && l[3] == ' ' && l[4] == 's';
    assert SkipSpaces(l, 0) == 0;
    assert l[..3] == "//#";
    assert SkipSpaces(l, 4) == 4;
    assert SkipSpaces(l, 3) == 4;
    assert l[4..4 + |Marker|] == Marker;
  }

  lemma {:induction false} SkipSpacesExtend(l: string, c: char, i: nat)
    requires i <= |l| && SkipSpaces(l, i) < |l|
    ensures SkipSpaces(l + [c], i) == SkipSpaces(l, i)
    decreases |l| - i
  {
    if i < |l| && IsSpace(l[i]) {
      assert (l + [c])[i] == l[i];
      SkipSpacesExtend(l, c, i + 1);
    } else {
      assert (l + [c])[i] == l[i];
    }
  }

  lemma HasAtExtend(l: string, c: char, i: int, p: string)
    requires HasAt(l, i, p)
    ensures HasAt(l + [c], i, p)
  {
    assert (l + [c])[i..i + |p|] == l[i..i + |p|];
  }

  /** White space after a reference line leaves it a reference line. */
  lemma ReferenceExtends(l: string, c: char)
    requires IsSpace(c) && IsReference(l)
    ensures IsReference(l + [c])
  {
    if IsLineReference(l) {
      LineReferenceExtends(l, c);
    } else {
      BlockReferenceExtends(l, c);
    }
  }

  lemma LineReferenceExtends(l: string, c: char)
    requires IsLineReference(l)
    ensures IsLineReference(l + [c])
  {
    var j := SkipSpaces(l, 0);
    var k := SkipSpaces(l, j + 3);
    SkipSpacesExtend(l, c, 0);
    SkipSpacesExtend(l, c, j + 3);
    HasAtExtend(l, c, j, "//#");
    HasAtExtend(l, c, k, Marker);
  }

  lemma BlockReferenceExtends(l: string, c: char)
    requires IsSpace(c) && IsBlockReference(l)
    ensures IsBlockReference(l + [c])
  {
    var j := SkipSpaces(l, 0);
    var k := SkipSpaces(l, j + 3);
    SkipSpacesExtend(l, c, 0);
    SkipSpacesExtend(l, c, j + 3);
    HasAtExtend(l, c, j, "/*#");
    HasAtExtend(l, c, k, Marker);
    TrimEndOfSpaces(l, [c]);
  }

  /** Appending a non-separator character lengthens the last piece. */
  lemma {:induction false} SplitAppendChar(a: string, c: char, sep: char)
    requires c != sep
    ensures var p := Split(a, sep);
      Split(a + [c], sep) == p[..|p| - 1] + [p[|p| - 1] + [c]]
    decreases |a|
  {
    if |a| == 0 {
      SplitCons(c, "", sep);
      assert a + [c] == [c] + "";
    } else {
      var t := a[1..];
      var q := Split(t, sep);
      SplitAppendChar(t, c, sep);
      assert a + [c] == [a[0]] + (t + [c]);
      assert a == [a[0]] + t;
      SplitCons(a[0], t + [c], sep);
      SplitCons(a[0], t, sep);
      if a[0] == sep {
        ExtendLastCons("", q, c);
      } else {
        ExtendLastMerge([a[0]], q, c);
      }
    }
  }

  lemma ExtendLastCons(x: string, q: seq<string>, c: char)
    requires |q| >= 1
    ensures var p := [x] + q;
      [x] + (q[..|q| - 1] + [q[|q| - 1] + [c]]) == p[..|p| - 1] + [p[|p| - 1] + [c]]
  {
  }

  lemma ExtendLastMerge(x: string, q: seq<string>, c: char)
    requires |q| >= 1
    ensures var p := [x + q[0]] + q[1..];
      var r := q[..|q| - 1] + [q[|q| - 1] + [c]];
      [x + r[0]] + r[1..] == p[..|p| - 1] + [p[|p| - 1] + [c]]
  {
    if |q| > 1 {
      assert (q[..|q| - 1] + [q[|q| - 1] + [c]])[1..] == q[1..|q| - 1] + [q[|q| - 1] + [c]];
    } else {
      assert x + (q[0] + [c]) == x + q[0] + [c];
    }
  }

  /** Trimming the end never creates a reference line. */
  lemma {:induction false} TrimEndKeepsNoReferences(s: string)
    requires NoReferences(s)
    ensures NoReferences(TrimEnd(s))
    decreases |s|
  {
    if |s| > 0 && IsSpace(s[|s| - 1]) {
      var a := s[..|s| - 1];
      var c := s[|s| - 1];
      assert s == a + [c];
      var pa := Split(a, '\n');
      if c == '\n' {
        SplitConcat(a, "", '\n');
        assert s == a + ['\n'] + "";
        assert Split(s, '\n') == pa + [""];
        forall k | 0 <= k < |pa| ensures !IsReference(pa[k]) {
          assert Split(s, '\n')[k] == pa[k];
        }
      } else {
        SplitAppendChar(a, c, '\n');
        var ps := Split(s, '\n');
        forall k | 0 <= k < |pa| ensures !IsReference(pa[k]) {
          if k < |pa| - 1 {
            assert ps[k] == pa[k];
          } else {
            assert ps[k] == pa[k] + [c];
            if IsReference(pa[k]) {
              ReferenceExtends(pa[k], c);
            }
          }
        }
      }
      TrimEndKeepsNoReferences(a);
    }
  }

  lemma StrippedHasNoReferences(text: string)
    ensures NoReferences(StripReferences(text))
    ensures NoReferences(TrimEnd(StripReferences(text)))
  {
    var blanked := BlankReferences(Split(text, '\n'));
    SplitPiecesLackSeparator(text, '\n');
    SplitJoin(blanked, '\n');
    EmptyIsNotReference();
    TrimEndKeepsNoReferences(StripReferences(text));
  }

  lemma TrimEndTrimmed(s: string)
    ensures TrimEnd(TrimEnd(s)) == TrimEnd(s)
  {
  }

  /** Text without reference lines is only trimmed before the new line is added. */
  lemma ApplyWithoutReferences(text: string, name: string)
    requires NoReferences(text)
    ensures ApplySourceMapFileReference(text, name) == TrimEnd(text) + ReferenceTail(name)
  {
    var lines := Split(text, '\n');
    assert BlankReferences(lines) == lines;
    JoinSplit(text, '\n');
  }

  /** The pieces of an output: the trimmed body's lines, the reference, and the
      empty piece after the final newline. */
  lemma SplitOutput(body: string, name: string)
    requires '\n' !in name
    ensures Split(body + ReferenceTail(name), '\n') == Split(body, '\n') + [LinePrefix + name, ""]
  {
    var refLine := LinePrefix + name;
    assert '\n' !in LinePrefix;
    assert '\n' !in refLine;
    assert body + ReferenceTail(name) == body + ['\n'] + (refLine + ['\n'] + "");
    SplitConcat(body, refLine + ['\n'] + "", '\n');
    SplitConcat(refLine, "", '\n');
    SplitWithoutSeparator(refLine, '\n');
  }

  /** The output holds exactly one reference line, the last non-empty one. */
  lemma ExactlyOneReference(text: string, name: string)
    requires '\n' !in name
    ensures var lines := Split(ApplySourceMapFileReference(text, name), '\n');
      |lines| >= 3 &&
      forall k :: 0 <= k < |lines| ==> (IsReference(lines[k]) <==> k == |lines| - 2)
  {
    var body := TrimEnd(StripReferences(text));
    StrippedHasNoReferences(text);
    SplitOutput(body, name);
    ReferenceLineIsReference(name);
    EmptyIsNotReference();
    var pb := Split(body, '\n');
    var lines := Split(ApplySourceMapFileReference(text, name), '\n');
    assert lines == pb + [LinePrefix + name, ""];
    forall k | 0 <= k < |lines| ensures IsReference(lines[k]) <==> k == |lines| - 2 {
      if k < |pb| {
        assert lines[k] == pb[k];
      }
    }
  }

  /** Re-applying with the same name changes nothing. */
  lemma ApplyIdempotent(text: string, name: string)
    requires '\n' !in name
    ensures ApplySourceMapFileReference(ApplySourceMapFileReference(text, name), name)
         == ApplySourceMapFileReference(text, name)
  {
    var body := TrimEnd(StripReferences(text));
    var once := ApplySourceMapFileReference(text, name);
    assert once == body + ReferenceTail(name);
    StrippedHasNoReferences(text);
    StripOutput(body, name);
    TrimEndOfSpaces(body, "\n\n");
    TrimEndTrimmed(StripReferences(text));
  }

  /** Stripping an output blanks its reference line and keeps the rest. */
  lemma StripOutput(body: string, name: string)
    requires '\n' !in name && NoReferences(body)
    ensures StripReferences(body + ReferenceTail(name)) == body + "\n\n"
  {
    SplitOutput(body, name);
    ReferenceLineIsReference(name);
    EmptyIsNotReference();
    var pb := Split(body, '\n');
    var lines := Split(body + ReferenceTail(name), '\n');
    assert BlankReferences(lines) == pb + ["", ""];
    JoinAppendEmpty(pb, '\n');
    JoinAppendEmpty(pb + [""], '\n');
    assert pb + ["", ""] == pb + [""] + [""];
    JoinSplit(body, '\n');
    assert body + "\n\n" == body + "\n" + "\n";
  }
}

=== FILE: path_sanitizer.dfy ===
/** The file-name and source-path sanitisers of the dist writer
    (src/helpers/write-bundles-to-dist.ts), and the lexical path resolution
    used to state that a sanitised path cannot leave the directory it is
    joined to. The platform separator is fixed to `/`. */
module PathSanitizer {
  import opened Wrappers
  import opened Text

  const MaxFileNameLength: nat := 200
  const DefaultBundleName := "bundle.js"

  // ---------------------------------------------------------------------------
  // sanitizeFileName

  /** `name.replace(/[^a-zA-Z0-9._-]/g, "_")`: one `_` per rejected character. */
  function ReplaceUnsafe(s: string): (r: string)
    ensures |r| == |s|
  {
    seq(|s|, k requires 0 <= k < |s| => if IsNameChar(s[k]) then s[k] else '_')
  }

  /** `sanitizeFileName`: whitelist the characters, then keep at most the first 200. */
  function SanitizeFileName(name: string): (r: string)
    ensures AllNameChars(r)
    ensures |r| == if |name| < MaxFileNameLength then |name| else MaxFileNameLength
    ensures forall k :: 0 <= k < |r| && IsNameChar(name[k]) ==> r[k] == name[k]
    ensures forall k :: 0 <= k < |r| && !IsNameChar(name[k]) ==> r[k] == '_'
  {
    var t := ReplaceUnsafe(name);
    if |t| > MaxFileNameLength then t[..MaxFileNameLength] else t
  }

  /** The strings `sanitizeFileName` leaves alone are exactly the short, already
      whitelisted ones. */
  lemma SanitizeFileNameFixedPoints(name: string)
    ensures SanitizeFileName(name) == name <==> AllNameChars(name) && |name| <= MaxFileNameLength
  {
    if AllNameChars(name) && |name| <= MaxFileNameLength {
      assert ReplaceUnsafe(name) == name;
    }
  }

  /** Sanitising twice is sanitising once. */
  lemma SanitizeFileNameIdempotent(name: string)
    ensures SanitizeFileName(SanitizeFileName(name)) == SanitizeFileName(name)
  {
    SanitizeFileNameFixedPoints(SanitizeFileName(name));
  }

  // ---------------------------------------------------------------------------
  // getBundleFileName

  /** `.filter(Boolean)` on strings: drop the empty ones. */
  function NonEmptyParts(parts: seq<string>): (r: seq<string>)
    ensures forall k :: 0 <= k < |r| ==> r[k] != ""
    ensures forall k :: 0 <= k < |r| ==> r[k] in parts
    ensures forall x :: x in parts && x != "" ==> x in r
    decreases |parts|
  {
    if |parts| == 0 then []
    else if parts[|parts| - 1] == "" then NonEmptyParts(parts[..|parts| - 1])
    else NonEmptyParts(parts[..|parts| - 1]) + [parts[|parts| - 1]]
  }

  /** `.filter(Boolean)` keeps order and multiplicity: it distributes over
      concatenation, and keeps a single part exactly when it is non-empty. */
  lemma {:induction false} NonEmptyPartsAppend(a: seq<string>, b: seq<string>)
    ensures NonEmptyParts(a + b) == NonEmptyParts(a) + NonEmptyParts(b)
    ensures forall x :: NonEmptyParts([x]) == (if x == "" then [] else [x])
    decreases |b|
  {
    if |b| > 0 {
      assert (a + b)[..|a + b| - 1] == a + b[..|b| - 1];
      assert (a + b)[|a + b| - 1] == b[|b| - 1];
      NonEmptyPartsAppend(a, b[..|b| - 1]);
    } else {
      assert a + b == a;
    }
    forall x ensures NonEmptyParts([x]) == (if x == "" then [] else [x]) {
      assert [x][..0] == [];
    }
  }

  /** What `.at(-1)` reads: the last kept part is the last non-empty part. */
  lemma {:induction false} NonEmptyPartsLast(parts: seq<string>)
    requires |NonEmptyParts(parts)| > 0
    ensures exists j :: 0 <= j < |parts| && NonEmptyParts(parts)[|NonEmptyParts(parts)| - 1] == parts[j] &&
                        forall k :: j < k < |parts| ==> parts[k] == ""
    decreases |parts|
  {
    var init := parts[..|parts| - 1];
    if parts[|parts| - 1] == "" {
      assert NonEmptyParts(parts) == NonEmptyParts(init);
      NonEmptyPartsLast(init);
      var j :| 0 <= j < |init| && NonEmptyParts(init)[|NonEmptyParts(init)| - 1] == init[j] &&
               forall k :: j < k < |init| ==> init[k] == "";
      assert parts[j] == init[j];
      forall k | j < k < |parts| ensures parts[k] == "" {
        if k < |parts| - 1 {
          assert parts[k] == init[k];
        }
      }
    } else {
      assert NonEmptyParts(parts) == NonEmptyParts(init) + [parts[|parts| - 1]];
    }
  }

  /** `getBundleFileName`, with `new URL(url).pathname` given as `pathname`
      (`None` when the URL constructor throws). The last non-empty segment of
      the pathname, sanitised; `bundle.js` when there is none. */
  function BundleFileName(pathname: Option<string>): (r: string)
    ensures r != "" && AllNameChars(r) && |r| <= MaxFileNameLength
  {
    DefaultBundleNameIsSafe();
    SanitizeFileName(LastSegment(pathname))
  }

  /** The segment `getBundleFileName` sanitises. */
  function LastSegment(pathname: Option<string>): string {
    if pathname.None? then DefaultBundleName
    else
      var segs := NonEmptyParts(Split(pathname.value, '/'));
      if |segs| == 0 then DefaultBundleName else segs[|segs| - 1]
  }

  /** The segment read by `.at(-1) ?? "bundle.js"` is one non-empty segment:
      `bundle.js` without a non-empty part, and otherwise a part of the
      pathname after which every part is empty. */
  lemma LastSegmentIsLastNonEmpty(pathname: Option<string>)
    ensures LastSegment(pathname) != "" && '/' !in LastSegment(pathname)
    ensures pathname.None? || |NonEmptyParts(Split(pathname.value, '/'))| == 0 ==>
      LastSegment(pathname) == DefaultBundleName
    ensures pathname.Some? && |NonEmptyParts(Split(pathname.value, '/'))| > 0 ==>
      var parts := Split(pathname.value, '/');
      exists j :: 0 <= j < |parts| && parts[j] == LastSegment(pathname) &&
                  forall k :: j < k < |parts| ==> parts[k] == ""
  {
    if pathname.Some? && |NonEmptyParts(Split(pathname.value, '/'))| > 0 {
      LastPartOfPathname(pathname.value);
    } else {
      assert '/' !in DefaultBundleName;
    }
  }

  lemma LastPartOfPathname(p: string)
    requires |NonEmptyParts(Split(p, '/'))| > 0
    ensures LastSegment(Some(p)) != "" && '/' !in LastSegment(Some(p))
    ensures var parts := Split(p, '/');
      exists j :: 0 <= j < |parts| && parts[j] == LastSegment(Some(p)) &&
                  forall k :: j < k < |parts| ==> parts[k] == ""
  {
    var parts := Split(p, '/');
    LastSegmentOfSome(p);
    NonEmptyPartsLast(parts);
    SeparatorFreeParts(p);
  }

  lemma LastSegmentOfSome(p: string)
    requires |NonEmptyParts(Split(p, '/'))| > 0
    ensures LastSegment(Some(p)) == NonEmptyParts(Split(p, '/'))[|NonEmptyParts(Split(p, '/'))| - 1]
  {
  }

  lemma SeparatorFreeParts(p: string)
    ensures forall x :: x in Split(p, '/') ==> '/' !in x
  {
    SplitPiecesLackSeparator(p, '/');
  }


  lemma DefaultBundleNameIsSafe()
    ensures SanitizeFileName(DefaultBundleName) == DefaultBundleName
  {
    assert AllNameChars(DefaultBundleName) by {
      forall k | 0 <= k < |DefaultBundleName| ensures IsNameChar(DefaultBundleName[k]) {
      }
    }
    SanitizeFileNameFixedPoints(DefaultBundleName);
  }

  /** The name is `bundle.js` without a pathname or without a non-empty
      segment in it, and otherwise the last non-empty segment, sanitised. */
  lemma BundleFileNameCases(pathname: Option<string>)
    ensures pathname.None? ==> BundleFileName(pathname) == DefaultBundleName
    ensures pathname.Some? && |NonEmptyParts(Split(pathname.value, '/'))| == 0 ==>
      BundleFileName(pathname) == DefaultBundleName
    ensures pathname.Some? && |NonEmptyParts(Split(pathname.value, '/'))| > 0 ==>
      var segs := NonEmptyParts(Split(pathname.value, '/'));
      BundleFileName(pathname) == SanitizeFileName(segs[|segs| - 1])
  {
    if pathname.Some? && |NonEmptyParts(Split(pathname.value, '/'))| > 0 {
      LastNonEmptySegmentName(pathname.value);
    } else {
      assert LastSegment(pathname) == DefaultBundleName;
      assert BundleFileName(pathname) == SanitizeFileName(LastSegment(pathname));
      DefaultBundleNameIsSafe();
    }
  }

  lemma LastNonEmptySegmentName(p: string)
    requires |NonEmptyParts(Split(p, '/'))| > 0
    ensures var segs := NonEmptyParts(Split(p, '/'));
      BundleFileName(Some(p)) == SanitizeFileName(segs[|segs| - 1])
  {
    var segs := NonEmptyParts(Split(p, '/'));
    assert LastSegment(Some(p)) == segs[|segs| - 1];
    assert BundleFileName(Some(p)) == SanitizeFileName(LastSegment(Some(p)));
  }

  /** A bundle file name is one path segment: non-empty, slash-free, and equal to
      `..` or `.` only when the pathname's last segment is. */
  lemma BundleFileNameIsSegment(pathname: Option<string>)
    ensures '/' !in BundleFileName(pathname)
    ensures SanitizeFileName(BundleFileName(pathname)) == BundleFileName(pathname)
    ensures BundleFileName(pathname) in {".", ".."} ==>
      pathname.Some? && BundleFileName(pathname) in NonEmptyParts(Split(pathname.value, '/'))
  {
    var r := BundleFileName(pathname);
    NameCharsLackSlash(r);
    SanitizeFileNameFixedPoints(r);
    if r == "." || r == ".." {
      DotNameFromSegment(pathname);
    }
  }

  lemma NameCharsLackSlash(s: string)
    requires AllNameChars(s)
    ensures '/' !in s
  {
    assert forall k :: 0 <= k < |s| ==> s[k] != '/';
  }

  /** A bundle file name of dots is the pathname's last segment unchanged. */
  lemma DotNameFromSegment(pathname: Option<string>)
    requires BundleFileName(pathname) == "." || BundleFileName(pathname) == ".."
    ensures pathname.Some? && BundleFileName(pathname) in NonEmptyParts(Split(pathname.value, '/'))
  {
    var r := BundleFileName(pathname);
    var last := LastSegment(pathname);
    SanitizedDots(last, r);
    DefaultBundleNameIsSafe();
    assert last != DefaultBundleName;
  }

  /** Only dots sanitise to a short run of dots. */
  lemma SanitizedDots(name: string, r: string)
    requires SanitizeFileName(name) == r && |r| < MaxFileNameLength
    requires forall k :: 0 <= k < |r| ==> r[k] == '.'
    ensures name == r
  {
    assert |name| == |r|;
    forall k | 0 <= k < |r| ensures name[k] == r[k] {
      assert IsNameChar(name[k]);
    }
  }

  // ---------------------------------------------------------------------------
  // sanitizeRelativeSourcePath

  /** `raw.replace(/\\/g, "/")`. */
  function NormalizeSeparators(s: string): (r: string)
    ensures |r| == |s| && '\\' !in r
    ensures forall k :: 0 <= k < |s| ==> r[k] == (if s[k] == '\\' then '/' else s[k])
  {
    seq(|s|, k requires 0 <= k < |s| => if s[k] == '\\' then '/' else s[k])
  }

  /** Normalising twice is normalising once, and text without a backslash is
      left as it is. */
  lemma NormalizeSeparatorsIdempotent(s: string)
    ensures NormalizeSeparators(NormalizeSeparators(s)) == NormalizeSeparators(s)
    ensures '\\' !in s ==> NormalizeSeparators(s) == s
  {
    NormalizeSeparatorsWithoutBackslash(NormalizeSeparators(s));
    if '\\' !in s {
      NormalizeSeparatorsWithoutBackslash(s);
    }
  }

  lemma NormalizeSeparatorsWithoutBackslash(s: string)
    requires '\\' !in s
    ensures NormalizeSeparators(s) == s
  {
  }

  /** Number of copies of `c` that `s` starts with. */
  function CountLeading(s: string, c: char): (n: nat)
    ensures n <= |s|
    ensures forall k :: 0 <= k < n ==> s[k] == c
    ensures n == |s| || s[n] != c
    decreases |s|
  {
    if |s| > 0 && s[0] == c then 1 + CountLeading(s[1..], c) else 0
  }

  /** Length of the run of ASCII letters `s` starts with. */
  function LetterRun(s: string): (n: nat)
    ensures n <= |s|
    ensures forall k :: 0 <= k < n ==> IsAsciiLetter(s[k])
    ensures n == |s| || !IsAsciiLetter(s[n])
    decreases |s|
  {
    if |s| > 0 && IsAsciiLetter(s[0]) then 1 + LetterRun(s[1..]) else 0
  }

  /** `.replace(/^webpack:\/\//, "")`: a suffix of `s`, shorter by the ten
      characters of the prefix exactly when `s` starts with it. */
  function StripWebpack(s: string): string {
    if HasAt(s, 0, "webpack://") then s[10..] else s
  }

  /** `.replace(/^[a-zA-Z]+:\/\//, "")`: the letter run cannot stop early, since
      the character after a shorter run is a letter and not `:`. */
  function StripScheme(s: string): string {
    var n := LetterRun(s);
    if n >= 1 && HasAt(s, n, "://") then s[n + 3..] else s
  }

  /** `.replace(/^[a-zA-Z]:\//, "")`: a suffix of `s`, shorter by three
      exactly when `s` starts with a letter, `:` and `/`. */
  function StripDrive(s: string): string {
    if |s| >= 3 && IsAsciiLetter(s[0]) && s[1] == ':' && s[2] == '/' then s[3..] else s
  }

  /** `.replace(/^\.\/+/, "")`: one dot, then every slash after it. */
  function StripDotSlashes(s: string): string {
    if |s| >= 2 && s[0] == '.' && s[1] == '/' then s[1..][CountLeading(s[1..], '/')..] else s
  }

  /** `.replace(/^\/+/, "")`: what follows the leading slashes. */
  function StripSlashes(s: string): string {
    s[CountLeading(s, '/')..]
  }

  /** The webpack strip removes exactly its ten-character prefix, when present. */
  lemma StripWebpackShape(s: string)
    ensures IsSuffix(StripWebpack(s), s)
    ensures StripWebpack(s) != s <==> HasAt(s, 0, "webpack://")
    ensures StripWebpack(s) != s ==> |StripWebpack(s)| == |s| - 10
  {
  }

  /** The scheme strip removes only a prefix of letters followed by `://`. */
  lemma StripSchemeShape(s: string)
    ensures IsSuffix(StripScheme(s), s)
    ensures StripScheme(s) != s ==> var n := |s| - |StripScheme(s)| - 3;
      && n >= 1 && s[n..n + 3] == "://"
      && forall k :: 0 <= k < n ==> IsAsciiLetter(s[k])
  {
  }

  /** The drive strip removes exactly a letter, `:` and `/`, when present. */
  lemma StripDriveShape(s: string)
    ensures IsSuffix(StripDrive(s), s)
    ensures StripDrive(s) != s <==> |s| >= 3 && IsAsciiLetter(s[0]) && s[1] == ':' && s[2] == '/'
    ensures StripDrive(s) != s ==> |StripDrive(s)| == |s| - 3
  {
  }

  /** The dot-slash strip removes one `.` and the slashes after it, only when
      `s` starts with `./`. */
  lemma StripDotSlashesShape(s: string)
    ensures IsSuffix(StripDotSlashes(s), s)
    ensures StripDotSlashes(s) != s <==> |s| >= 2 && s[0] == '.' && s[1] == '/'
    ensures StripDotSlashes(s) != s ==> forall k :: 1 <= k < |s| - |StripDotSlashes(s)| ==> s[k] == '/'
    ensures StripDotSlashes(s) != s ==> |StripDotSlashes(s)| == 0 || StripDotSlashes(s)[0] != '/'
  {
  }

  /** The slash strip removes exactly the leading slashes. */
  lemma StripSlashesShape(s: string)
    ensures IsSuffix(StripSlashes(s), s)
    ensures forall k :: 0 <= k < |s| - |StripSlashes(s)| ==> s[k] == '/'
    ensures |StripSlashes(s)| == 0 || StripSlashes(s)[0] != '/'
  {
  }

  /** The prefix stripping at the start of `sanitizeRelativeSourcePath`, in the
      source's order. */
  function NormalizeRaw(raw: string): string {
    StripSlashes(StripDotSlashes(StripDrive(StripScheme(StripWebpack(NormalizeSeparators(raw))))))
  }

  /** `a` is a suffix of `b`. */
  predicate IsSuffix(a: string, b: string) {
    |a| <= |b| && a == b[|b| - |a|..]
  }

  lemma SuffixTransitive(a: string, b: string, c: string)
    requires IsSuffix(a, b) && IsSuffix(b, c)
    ensures IsSuffix(a, c)
  {
    assert c[|c| - |a|..] == c[|c| - |b|..][|b| - |a|..];
  }

  /** The prefix stripping only removes a prefix of the slash-normalised input,
      and leaves neither a backslash nor a leading slash. */
  lemma NormalizeRawShape(raw: string)
    ensures IsSuffix(NormalizeRaw(raw), NormalizeSeparators(raw))
    ensures '\\' !in NormalizeRaw(raw)
    ensures |NormalizeRaw(raw)| == 0 || NormalizeRaw(raw)[0] != '/'
  {
    var s0 := NormalizeSeparators(raw);
    var s1 := StripWebpack(s0);
    var s2 := StripScheme(s1);
    var s3 := StripDrive(s2);
    var s4 := StripDotSlashes(s3);
    var s5 := StripSlashes(s4);
    StripWebpackShape(s0);
    StripSchemeShape(s1);
    StripDriveShape(s2);
    StripDotSlashesShape(s3);
    StripSlashesShape(s4);
    SuffixTransitive(s2, s1, s0);
    SuffixTransitive(s3, s2, s0);
    SuffixTransitive(s4, s3, s0);
    SuffixTransitive(s5, s4, s0);
    SuffixWithout(s5, s0, '\\');
  }

  lemma SuffixWithout(a: string, b: string, c: char)
    requires IsSuffix(a, b) && c !in b
    ensures c !in a
  {
    assert forall k :: 0 <= k < |a| ==> a[k] == b[|b| - |a| + k];
  }

  /** The `.filter` in `sanitizeRelativeSourcePath`: drop empty, `.` and `..`
      segments. */
  function KeptSegments(parts: seq<string>): (r: seq<string>)
    ensures forall k :: 0 <= k < |r| ==> IsContainedSegment(r[k])
    ensures forall k :: 0 <= k < |r| ==> r[k] in parts
    ensures forall x :: x in parts && IsContainedSegment(x) ==> x in r
    decreases |parts|
  {
    if |parts| == 0 then []
    else
      var init := KeptSegments(parts[..|parts| - 1]);
      var last := parts[|parts| - 1];
      if IsContainedSegment(last) then init + [last] else init
  }

  /** What `sanitizeRelativeSourcePath` makes of one kept segment at position
      `idx`: leading dots stripped, characters whitelisted, `_source_<idx>` when
      nothing is left, and a leading `.` replaced by `_`. */
  function CleanSegment(part: string, idx: nat): (r: string)
    ensures IsSafeSegment(r)
  {
    var p := ReplaceUnsafe(part[CountLeading(part, '.')..]);
    var p := if |p| == 0 then "_source_" + Decimal(idx) else p;
    if p[0] == '.' then "_" + Tail(p) else p
  }

  /** `s.slice(1)`. */
  function Tail(s: string): string {
    if |s| == 0 then s else s[1..]
  }

  /** The `startsWith(".")` guard in `sanitizeRelativeSourcePath` never fires: stripping the leading dots first leaves
      nothing for it to catch. */
  lemma LeadingDotGuardIsDead(part: string, idx: nat)
    ensures var p := ReplaceUnsafe(part[CountLeading(part, '.')..]);
      var p := if |p| == 0 then "_source_" + Decimal(idx) else p;
      p[0] != '.'
  {
  }

  /** A segment of a sanitised path. */
  predicate IsSafeSegment(seg: string) {
    |seg| > 0 && AllNameChars(seg) && seg[0] != '.'
  }

  /** A segment that lexical resolution keeps as it is. */
  predicate IsContainedSegment(seg: string) {
    seg != "" && seg != "." && seg != ".."
  }

  /** The invariant of a sanitised path: every `/`-separated segment is safe,
      so there is at least one, and no leading, trailing or doubled slash. */
  predicate IsSafeRelativePath(p: string) {
    var segs := Split(p, '/');
    forall k :: 0 <= k < |segs| ==> IsSafeSegment(segs[k])
  }

  function CleanSegments(parts: seq<string>): (r: seq<string>)
    ensures |r| == |parts|
    ensures forall k :: 0 <= k < |r| ==> IsSafeSegment(r[k])
  {
    seq(|parts|, k requires 0 <= k < |parts| => CleanSegment(parts[k], k))
  }

  /** `sanitizeRelativeSourcePath`: `None` exactly for the empty input and for
      an input with no surviving segment. */
  function SanitizeRelativeSourcePath(raw: string): (r: Option<string>)
    ensures r.None? <==> raw == "" || |KeptSegments(Split(NormalizeRaw(raw), '/'))| == 0
  {
    if raw == "" then None
    else
      var parts := KeptSegments(Split(NormalizeRaw(raw), '/'));
      var cleaned := CleanSegments(parts);
      var joined := Join(cleaned, '/');
      JoinSafeSegments(cleaned);
      if joined == "" then None else Some(joined)
  }

  /** A non-null result is a safe relative path. */
  lemma SanitizedPathIsSafe(raw: string)
    ensures SanitizeRelativeSourcePath(raw).Some? ==> IsSafeRelativePath(SanitizeRelativeSourcePath(raw).value)
  {
    if raw != "" {
      JoinSafeSegments(CleanSegments(KeptSegments(Split(NormalizeRaw(raw), '/'))));
    }
  }

  /** The segments of a sanitised path are the surviving segments, each cleaned
      with its own position. */
  lemma SanitizedSegments(raw: string)
    ensures var r := SanitizeRelativeSourcePath(raw);
      var kept := KeptSegments(Split(NormalizeRaw(raw), '/'));
      r.Some? ==> |Split(r.value, '/')| == |kept|
                  && forall k :: 0 <= k < |kept| ==> Split(r.value, '/')[k] == CleanSegment(kept[k], k)
  {
    if raw != "" {
      JoinSafeSegments(CleanSegments(KeptSegments(Split(NormalizeRaw(raw), '/'))));
    }
  }

  /** Joining safe segments gives a safe path, empty only for no segments. */
  lemma JoinSafeSegments(segs: seq<string>)
    requires forall k :: 0 <= k < |segs| ==> IsSafeSegment(segs[k])
    ensures Join(segs, '/') == "" <==> |segs| == 0
    ensures |segs| > 0 ==> IsSafeRelativePath(Join(segs, '/')) && Split(Join(segs, '/'), '/') == segs
  {
    if |segs| > 0 {
      SplitJoin(segs, '/');
      assert Split("", '/') == [""];
    }
  }

  lemma SafeSegmentKept(seg: string, idx: nat)
    requires IsSafeSegment(seg)
    ensures IsContainedSegment(seg)
    ensures CleanSegment(seg, idx) == seg
  {
    assert CountLeading(seg, '.') == 0;
    assert ReplaceUnsafe(seg) == seg;
  }

  /** The `.filter` in `sanitizeRelativeSourcePath` keeps order and multiplicity: it distributes
      over concatenation. */
  lemma {:induction false} KeptSegmentsAppend(a: seq<string>, b: seq<string>)
    ensures KeptSegments(a + b) == KeptSegments(a) + KeptSegments(b)
    decreases |b|
  {
    if |b| > 0 {
      var ab := a + b;
      var b' := b[..|b| - 1];
      var last := b[|b| - 1];
      assert ab[..|ab| - 1] == a + b';
      assert ab[|ab| - 1] == last;
      KeptSegmentsAppend(a, b');
      var tail := if IsContainedSegment(last) then [last] else [];
      assert KeptSegments(ab) == KeptSegments(a + b') + tail;
      assert KeptSegments(b) == KeptSegments(b') + tail;
    } else {
      assert a + b == a;
    }
  }

  /** A single segment is kept exactly when it is contained. */
  lemma KeptSegmentsSingle(x: string)
    ensures KeptSegments([x]) == (if IsContainedSegment(x) then [x] else [])
  {
    assert [x][..0] == [];
  }

  lemma {:induction false} KeptSegmentsOfContained(parts: seq<string>)
    requires forall k :: 0 <= k < |parts| ==> IsContainedSegment(parts[k])
    ensures KeptSegments(parts) == parts
    decreases |parts|
  {
    if |parts| > 0 {
      KeptSegmentsOfContained(parts[..|parts| - 1]);
    }
  }

  /** A safe path is made of name characters and slashes and starts with neither
      a dot nor a slash. */
  lemma SafePathCharacters(p: string)
    requires IsSafeRelativePath(p)
    ensures |p| > 0 && p[0] != '.' && p[0] != '/'
    ensures forall k :: 0 <= k < |p| ==> IsNameChar(p[k]) || p[k] == '/'
  {
    var segs := Split(p, '/');
    JoinSplit(p, '/');
    JoinNameChars(segs, '/');
    assert IsSafeSegment(segs[0]);
    if |segs| == 1 {
      assert p == segs[0];
    } else {
      assert p == segs[0] + ['/'] + Join(segs[1..], '/');
      assert p[0] == segs[0][0];
    }
  }

  /** No prefix-stripping step applies to a safe path. */
  lemma NormalizeSafePath(p: string)
    requires IsSafeRelativePath(p)
    ensures NormalizeRaw(p) == p
  {
    SafePathCharacters(p);
    assert NormalizeSeparators(p) == p;
    assert forall k :: 0 <= k < |p| ==> p[k] != ':';
    var n := LetterRun(p);
    assert "webpack://"[7] == ':' && "://"[0] == ':';
    assert StripScheme(p) == p;
    assert StripDrive(p) == p by {
      if |p| >= 3 {
        assert !IsNameChar(':');
      }
    }
    assert StripDotSlashes(p) == p;
    assert CountLeading(p, '/') == 0;
  }

  /** Sanitising a sanitised path returns it unchanged. */
  lemma SanitizeRelativeSourcePathIdempotent(p: string)
    requires IsSafeRelativePath(p)
    ensures SanitizeRelativeSourcePath(p) == Some(p)
  {
    SafePathCharacters(p);
    NormalizeSafePath(p);
    SafeSegmentsKept(p);
    SanitizeThroughSegments(p, p);
  }

  /** The segments of a safe path all survive the filter. */
  lemma SafeSegmentsKept(p: string)
    requires IsSafeRelativePath(p)
    ensures KeptSegments(Split(p, '/')) == Split(p, '/')
  {
    var segs := Split(p, '/');
    forall k | 0 <= k < |segs| ensures IsContainedSegment(segs[k]) {
      SafeSegmentKept(segs[k], k);
    }
    KeptSegmentsOfContained(segs);
  }

  /** An input whose surviving segments are those of a safe path `p`
      sanitises to `p`. */
  lemma SanitizeThroughSegments(raw: string, p: string)
    requires raw != "" && IsSafeRelativePath(p)
    requires KeptSegments(Split(NormalizeRaw(raw), '/')) == Split(p, '/')
    ensures SanitizeRelativeSourcePath(raw) == Some(p)
  {
    var segs := Split(p, '/');
    forall k | 0 <= k < |segs| ensures CleanSegments(segs)[k] == segs[k] {
      SafeSegmentKept(segs[k], k);
    }
    assert CleanSegments(segs) == segs;
    JoinSplit(p, '/');
    SafePathCharacters(p);
  }

  /** Re-sanitising any sanitiser output is the identity. */
  lemma SanitizeRelativeSourcePathStable(raw: string)
    ensures var r := SanitizeRelativeSourcePath(raw);
      r.Some? ==> SanitizeRelativeSourcePath(r.value) == r
  {
    var r := SanitizeRelativeSourcePath(raw);
    if r.Some? {
      SanitizedPathIsSafe(raw);
      SanitizeRelativeSourcePathIdempotent(r.value);
    }
  }

  /** A kept segment not starting with a dot is only whitelisted. */
  lemma CleanSegmentReplaces(seg: string, idx: nat)
    requires |seg| > 0 && seg[0] != '.'
    ensures CleanSegment(seg, idx) == ReplaceUnsafe(seg)
  {
    assert CountLeading(seg, '.') == 0;
    assert seg[0..] == seg;
  }

  const WebpackPrefix := "webpack:///./"

  /** The usual webpack source name `webpack:///./<path>` loses its scheme, its
      empty authority and its `./`: what is left is `./<path>`. */
  lemma WebpackPrefixNormalized(rest: string)
    requires '\\' !in rest
    ensures NormalizeRaw(WebpackPrefix + rest) == "./" + rest
  {
    var raw := WebpackPrefix + rest;
    assert '\\' !in WebpackPrefix;
    NormalizeSeparatorsWithoutBackslash(raw);
    WebpackStep(rest);
    KeepSlashDot("/./" + rest);
    SlashStep(rest);
  }

  lemma WebpackStep(rest: string)
    ensures StripWebpack(WebpackPrefix + rest) == "/./" + rest
  {
    var raw := WebpackPrefix + rest;
    assert raw[..10] == "webpack://";
    assert raw[10..] == "/./" + rest;
  }

  lemma KeepSlashDot(s: string)
    requires |s| > 0 && s[0] == '/'
    ensures StripDotSlashes(StripDrive(StripScheme(s))) == s
  {
    assert LetterRun(s) == 0;
  }

  lemma SlashStep(rest: string)
    ensures StripSlashes("/./" + rest) == "./" + rest
  {
    var s := "/./" + rest;
    assert CountLeading(s[1..], '/') == 0;
    assert s[1..] == "./" + rest;
  }

  /** `webpack:///./<p>` sanitises to `p` for a path `p` that is already safe. */
  lemma SanitizeWebpackPath(p: string)
    requires IsSafeRelativePath(p)
    ensures SanitizeRelativeSourcePath(WebpackPrefix + p) == Some(p)
  {
    WebpackSegments(p);
    SanitizeThroughSegments(WebpackPrefix + p, p);
  }

  lemma WebpackSegments(p: string)
    requires IsSafeRelativePath(p)
    ensures KeptSegments(Split(NormalizeRaw(WebpackPrefix + p), '/')) == Split(p, '/')
  {
    SafePathCharacters(p);
    assert '\\' !in p;
    WebpackPrefixNormalized(p);
    DotSegmentDropped(p);
    SafeSegmentsKept(p);
  }

  lemma DotSegmentDropped(p: string)
    ensures KeptSegments(Split("./" + p, '/')) == KeptSegments(Split(p, '/'))
  {
    assert "./" + p == "." + ['/'] + p;
    SplitConcat(".", p, '/');
    SplitWithoutSeparator(".", '/');
    KeptSegmentsDropFront(".", Split(p, '/'));
  }

  /** A Windows drive `<letter>:/` in front of a path is dropped. */
  lemma DriveLetterNormalized(c: char, rest: string)
    requires IsAsciiLetter(c) && '\\' !in rest
    requires |rest| == 0 || (rest[0] != '/' && rest[0] != '.')
    ensures NormalizeRaw([c] + ":/" + rest) == rest
  {
    var raw := [c] + ":/" + rest;
    assert '\\' !in raw;
    NormalizeSeparatorsWithoutBackslash(raw);
    assert raw[1] == ':';
    assert StripWebpack(raw) == raw;
    assert LetterRun(raw[1..]) == 0;
    assert LetterRun(raw) == 1;
    assert !HasAt(raw, 1, "://") by {
      if |rest| > 0 {
        assert raw[3] == rest[0];
      }
    }
    assert StripScheme(raw) == raw;
    assert raw[3..] == rest;
    assert StripDrive(raw) == rest;
  }

  /** A letter run followed by `://` stops exactly at the `:`. */
  lemma {:induction false} LetterRunPrefix(s: string, t: string)
    requires forall k :: 0 <= k < |s| ==> IsAsciiLetter(s[k])
    requires |t| > 0 && !IsAsciiLetter(t[0])
    ensures LetterRun(s + t) == |s|
    decreases |s|
  {
    if |s| > 0 {
      assert (s + t)[0] == s[0];
      assert (s + t)[1..] == s[1..] + t;
      LetterRunPrefix(s[1..], t);
    } else {
      assert s + t == t;
    }
  }

  /** Any scheme `<letters>://` in front of a path is dropped. */
  lemma SchemeStripped(scheme: string, rest: string)
    requires |scheme| > 0 && forall k :: 0 <= k < |scheme| ==> IsAsciiLetter(scheme[k])
    ensures StripScheme(scheme + "://" + rest) == rest
  {
    var s := scheme + "://" + rest;
    assert s == scheme + ("://" + rest);
    LetterRunPrefix(scheme, "://" + rest);
    assert s[|scheme|..|scheme| + 3] == "://";
    assert s[|scheme| + 3..] == rest;
  }

  /** A safe path is left alone by every prefix strip after the scheme. */
  lemma SafePathUnstripped(p: string)
    requires IsSafeRelativePath(p)
    ensures StripScheme(p) == p && StripDrive(p) == p && StripDotSlashes(p) == p && StripSlashes(p) == p
  {
    SafePathCharacters(p);
    NameCharsUnstripped(p);
  }

  lemma NameCharsUnstripped(p: string)
    requires |p| > 0 && p[0] != '.' && p[0] != '/'
    requires forall k :: 0 <= k < |p| ==> IsNameChar(p[k]) || p[k] == '/'
    ensures StripScheme(p) == p && StripDrive(p) == p && StripDotSlashes(p) == p && StripSlashes(p) == p
  {
    var n := LetterRun(p);
    if n < |p| {
      assert p[n] != ':';
    }
    assert !HasAt(p, n, "://");
    if |p| >= 2 {
      assert p[1] != ':';
    }
    assert CountLeading(p, '/') == 0;
  }

  /** `<scheme>://<p>` sanitises to `p`, for any scheme of letters (`webpack`
      included) and any path `p` that is already safe. */
  lemma SanitizeSchemePath(scheme: string, p: string)
    requires |scheme| > 0 && forall k :: 0 <= k < |scheme| ==> IsAsciiLetter(scheme[k])
    requires IsSafeRelativePath(p)
    ensures SanitizeRelativeSourcePath(scheme + "://" + p) == Some(p)
  {
    SchemePrefixNormalized(scheme, p);
    SafeSegmentsKept(p);
    SanitizeThroughSegments(scheme + "://" + p, p);
  }

  lemma SchemePrefixNormalized(scheme: string, p: string)
    requires |scheme| > 0 && forall k :: 0 <= k < |scheme| ==> IsAsciiLetter(scheme[k])
    requires IsSafeRelativePath(p)
    ensures NormalizeRaw(scheme + "://" + p) == p
  {
    var raw := scheme + "://" + p;
    SchemePrefixWithoutBackslash(scheme, p);
    NormalizeSeparatorsWithoutBackslash(raw);
    SafePathUnstripped(p);
    var w := StripWebpack(raw);
    if HasAt(raw, 0, "webpack://") {
      WebpackScheme(scheme, p);
      assert w == p;
    } else {
      assert w == raw;
      SchemeStripped(scheme, p);
    }
    assert StripScheme(w) == p;
  }

  lemma SchemePrefixWithoutBackslash(scheme: string, p: string)
    requires forall k :: 0 <= k < |scheme| ==> IsAsciiLetter(scheme[k])
    requires IsSafeRelativePath(p)
    ensures '\\' !in scheme + "://" + p
  {
    SafePathCharacters(p);
    var raw := scheme + "://" + p;
    forall k | 0 <= k < |raw| ensures raw[k] != '\\' {
      if k >= |scheme| + 3 {
        assert raw[k] == p[k - |scheme| - 3];
      }
    }
  }

  /** A scheme of letters that spells out `webpack://` is `webpack` itself. */
  lemma WebpackScheme(scheme: string, p: string)
    requires forall k :: 0 <= k < |scheme| ==> IsAsciiLetter(scheme[k])
    requires HasAt(scheme + "://" + p, 0, "webpack://")
    ensures scheme + "://" + p == "webpack://" + p
  {
    var raw := scheme + "://" + p;
    assert raw == scheme + ("://" + p);
    LetterRunPrefix(scheme, "://" + p);
    assert raw[7] == ':';
    assert LetterRun(raw) == 7;
    assert |scheme| == 7;
    assert raw[..10] == "webpack://";
    assert raw == raw[..10] + raw[10..];
  }

  /** `<letter>:/<p>` sanitises to `p` for a path `p` that is already safe. */
  lemma SanitizeDrivePath(c: char, p: string)
    requires IsAsciiLetter(c) && IsSafeRelativePath(p)
    ensures SanitizeRelativeSourcePath([c] + ":/" + p) == Some(p)
  {
    SafePathCharacters(p);
    assert '\\' !in p;
    DriveLetterNormalized(c, p);
    SafeSegmentsKept(p);
    SanitizeThroughSegments([c] + ":/" + p, p);
  }

  /** The filter drops a leading segment it does not keep. */
  lemma {:induction false} KeptSegmentsDropFront(x: string, parts: seq<string>)
    requires !IsContainedSegment(x)
    ensures KeptSegments([x] + parts) == KeptSegments(parts)
    decreases |parts|
  {
    if |parts| == 0 {
      assert ([x] + parts)[..0] == [];
    } else {
      var all := [x] + parts;
      assert all[..|all| - 1] == [x] + parts[..|parts| - 1];
      assert all[|all| - 1] == parts[|parts| - 1];
      KeptSegmentsDropFront(x, parts[..|parts| - 1]);
    }
  }

  // ---------------------------------------------------------------------------
  // Containment: lexical resolution, as `path.join`/`path.normalize` do it

  /** Resolves `segs` on top of the already resolved `stack`: empty and `.`
      segments vanish, `..` removes the last resolved segment or, when there is
      none left to remove, is kept and so climbs out of the starting point. */
  function ResolveFrom(stack: seq<string>, segs: seq<string>): seq<string>
    decreases |segs|
  {
    if |segs| == 0 then stack
    else
      var s := segs[0];
      if s == "" || s == "." then ResolveFrom(stack, segs[1..])
      else if s == ".." then
        if |stack| > 0 && stack[|stack| - 1] != ".." then ResolveFrom(stack[..|stack| - 1], segs[1..])
        else ResolveFrom(stack + [".."], segs[1..])
      else ResolveFrom(stack + [s], segs[1..])
  }

  /** Joining a base with a path whose segments are all contained never climbs
      above the base: the resolved path is the base followed by the segments. */
  lemma {:induction false} ResolveContained(stack: seq<string>, segs: seq<string>)
    requires forall k :: 0 <= k < |segs| ==> IsContainedSegment(segs[k])
    ensures ResolveFrom(stack, segs) == stack + segs
    decreases |segs|
  {
    if |segs| > 0 {
      ResolveContained(stack + [segs[0]], segs[1..]);
      assert stack + [segs[0]] + segs[1..] == stack + segs;
    }
  }

  /** The security property: a sanitised path joined under a root resolves to
      the root followed by the path's own segments, so it stays inside. */
  lemma SanitizedPathStaysInside(root: seq<string>, raw: string)
    requires SanitizeRelativeSourcePath(raw).Some?
    ensures var segs := Split(SanitizeRelativeSourcePath(raw).value, '/');
      ResolveFrom(root, segs) == root + segs
  {
    var segs := Split(SanitizeRelativeSourcePath(raw).value, '/');
    SanitizedPathIsSafe(raw);
    forall k | 0 <= k < |segs| ensures IsContainedSegment(segs[k]) {
      SafeSegmentKept(segs[k], 0);
    }
    ResolveContained(root, segs);
  }

  /** What the sanitiser prevents: an unsanitised `../` path resolved under
      `dist` ends up beside it. */
  lemma TraversalEscapes()
    ensures ResolveFrom(["dist"], ["..", "..", "etc"]) == ["..", "etc"]
  {
    assert ResolveFrom(["dist"], ["..", "..", "etc"]) == ResolveFrom([], ["..", "etc"]);
    assert ResolveFrom([], ["..", "etc"]) == ResolveFrom([".."], ["etc"]);
  }
}

=== FILE: source_map_locator.dfy ===
/** `getBundleSourceMap` and `getBundlesSourceMaps`
    (src/helpers/get-bundle-source-map.ts): find the source-map reference in a
    bundle, fetch it, fall back to a CDN-relative URL when the first answer is
    empty or unreadable, and collect the maps of a batch of bundles.
    `fetch` is a deterministic oracle from URL to response; a network error
    thrown by `fetch` itself is not modelled. */
module SourceMapLocator {
  import opened Wrappers
  import opened Http
  import opened Text
  import opened LiteralPattern

  const ReferenceMarker := "//# sourceMappingURL="
  const MapSuffix := ".map"
  const CdnRoot := "https://js.rbxcdn.com/"
  const CdnMarker := "rbxcdn.com/"
  const SentryMarker := "sentry"

  /** The three ways `getBundleSourceMap` can end: with a map text (possibly
      empty), with `undefined`, or by rethrowing the rejection of the fallback
      response's `text()`. */
  datatype MapFetch = Found(text: string) | Missing | BodyRejected

  /** An outcome together with the URLs fetched, in order. */
  datatype Lookup = Lookup(outcome: MapFetch, requested: seq<string>)

  /** A map the batch keeps: `if (!sourceMap)` rejects `undefined` and `""`. */
  predicate IsTruthy(m: MapFetch) {
    m.Found? && m.text != ""
  }

  // ---------------------------------------------------------------------------
  // The reference extractor

  /** `/\/\/# sourceMappingURL=(.+\.map)/.exec(bundleText)?.[1]`. */
  function ExtractMapReference(text: string): (r: Option<string>)
    ensures r.None? <==> NoMatchFrom(text, ReferenceMarker, MapSuffix, 0)
    ensures r.Some? ==> exists i, e :: IsFirstMatch(text, ReferenceMarker, MapSuffix, 0, i, e)
                                       && r.value == text[i + |ReferenceMarker|..e]
    ensures r.Some? ==> |r.value| >= 1 + |MapSuffix| && r.value[|r.value| - |MapSuffix|..] == MapSuffix
    ensures r.Some? ==> NoLineTerminator(r.value, 0, |r.value|)
  {
    match FirstMatch(text, ReferenceMarker, MapSuffix, 0)
    case None => None
    case Some((i, e)) =>
      CapturedShape(text, i, e);
      Some(text[i + |ReferenceMarker|..e])
  }

  /** The captured group of a match ends in `.map` and stays on one line. */
  lemma CapturedShape(text: string, i: int, e: int)
    requires MatchAt(text, ReferenceMarker, MapSuffix, i, e)
    ensures var u := text[i + |ReferenceMarker|..e];
      |u| >= 1 + |MapSuffix| && u[|u| - |MapSuffix|..] == MapSuffix && NoLineTerminator(u, 0, |u|)
  {
    var j := i + |ReferenceMarker|;
    var u := text[j..e];
    assert u[|u| - |MapSuffix|..] == text[e - |MapSuffix|..e];
    forall k | 0 <= k < |u| ensures !IsLineTerminator(u[k]) {
      assert u[k] == text[j + k];
      if k >= |u| - |MapSuffix| {
        assert u[k] == MapSuffix[k - (|u| - |MapSuffix|)];
      }
    }
  }

  /** A bundle whose first reference comment ends its line (at a line
      terminator or at the end of the text) yields exactly the URL written in
      it. */
  lemma ExtractsWrittenReference(text: string, i: nat, url: string)
    requires HasAt(text, i, ReferenceMarker + url) && EndsLine(text, i + |ReferenceMarker| + |url|)
    requires forall k :: 0 <= k < i ==> !HasAt(text, k, ReferenceMarker)
    requires |url| >= 1 + |MapSuffix| && url[|url| - |MapSuffix|..] == MapSuffix
    requires NoLineTerminator(url, 0, |url|)
    ensures ExtractMapReference(text) == Some(url)
  {
    WrittenFirstMatch(text, ReferenceMarker, MapSuffix, i, url);
    ExtractFromFirstMatch(text, i, i + |ReferenceMarker| + |url|, url);
  }

  lemma ExtractFromFirstMatch(text: string, i: nat, e: nat, url: string)
    requires FirstMatch(text, ReferenceMarker, MapSuffix, 0) == Some((i, e))
    requires i + |ReferenceMarker| <= e <= |text| && text[i + |ReferenceMarker|..e] == url
    ensures ExtractMapReference(text) == Some(url)
  {
    assert IsFirstMatch(text, ReferenceMarker, MapSuffix, 0, i, e);
    assert MatchAt(text, ReferenceMarker, MapSuffix, i, e);
    var r := ExtractMapReference(text);
    var i', e' :| IsFirstMatch(text, ReferenceMarker, MapSuffix, 0, i', e') && r.value == text[i' + |ReferenceMarker|..e'];
    FirstMatchUnique(text, ReferenceMarker, MapSuffix, 0, i, e, i', e');
  }

  // ---------------------------------------------------------------------------
  // The fallback URL

  /** `s.split(sep)[1]`: the text between the first and the second occurrence of
      `sep` (or the end), `None` when `sep` does not occur. */
  function SecondField(s: string, sep: string): (r: Option<string>)
    requires |sep| > 0
    ensures r.None? <==> forall k :: 0 <= k ==> !HasAt(s, k, sep)
    ensures r.Some? ==> FindFrom(s, sep, 0).Some?
    ensures r.Some? ==>
      var a := FindFrom(s, sep, 0).value;
      && a + |sep| + |r.value| <= |s|
      && s[a + |sep|..a + |sep| + |r.value|] == r.value
      && (a + |sep| + |r.value| == |s| || HasAt(s, a + |sep| + |r.value|, sep))
      && (forall k :: a + |sep| <= k < a + |sep| + |r.value| ==> !HasAt(s, k, sep))
  {
    match FindFrom(s, sep, 0)
    case None => None
    case Some(a) =>
      var start := a + |sep|;
      match FindFrom(s, sep, start)
      case None => Some(s[start..])
      case Some(b) => Some(s[start..b])
  }

  /** The URL tried second: `"https://js.rbxcdn.com/" + url.split("rbxcdn.com/")[1]`,
      in which an absent piece is rendered as `undefined`. */
  function FallbackUrl(url: string): (r: string)
    ensures |r| >= |CdnRoot| && r[..|CdnRoot|] == CdnRoot
    ensures SecondField(url, CdnMarker).None? ==> r == CdnRoot + "undefined"
    ensures SecondField(url, CdnMarker).Some? ==> r == CdnRoot + SecondField(url, CdnMarker).value
  {
    CdnRoot + SecondField(url, CdnMarker).GetOr("undefined")
  }

  /** A URL with exactly one `rbxcdn.com/`, on any host of that domain, falls
      back to the same path on `js.rbxcdn.com`. */
  lemma FallbackReplacesHost(host: string, path: string)
    requires forall k :: 0 <= k < |host| ==> !HasAt(host + CdnMarker + path, k, CdnMarker)
    requires forall k :: |host| + |CdnMarker| <= k ==> !HasAt(host + CdnMarker + path, k, CdnMarker)
    ensures FallbackUrl(host + CdnMarker + path) == CdnRoot + path
  {
    var u := host + CdnMarker + path;
    assert HasAt(u, |host|, CdnMarker);
    assert FindFrom(u, CdnMarker, 0) == Some(|host|);
    assert FindFrom(u, CdnMarker, |host| + |CdnMarker|).None?;
    assert u[|host| + |CdnMarker|..] == path;
  }

  // ---------------------------------------------------------------------------
  // getBundleSourceMap

  /** `getBundleSourceMap(bundleText)`: nothing is fetched without a reference;
      a non-empty first answer is returned whatever its status; otherwise the
      fallback URL is fetched and its text returned only when it is OK. */
  function GetBundleSourceMap(text: string, fetch: string -> Response): (r: Lookup)
    ensures ExtractMapReference(text).None? ==> r == Lookup(Missing, [])
    ensures ExtractMapReference(text).Some? ==>
      var url := ExtractMapReference(text).value;
      var primary := fetch(url).body;
      if primary.Some? && primary.value != "" then
        r == Lookup(Found(primary.value), [url])
      else
        var fallback := fetch(FallbackUrl(url));
        && r.requested == [url, FallbackUrl(url)]
        && (!fallback.ok ==> r.outcome == Missing)
        && (fallback.ok && fallback.body.Some? ==> r.outcome == Found(fallback.body.value))
        && (fallback.ok && fallback.body.None? ==> r.outcome == BodyRejected)
  {
    match ExtractMapReference(text)
    case None => Lookup(Missing, [])
    case Some(url) =>
      var primary := fetch(url).body;
      if primary.Some? && primary.value != "" then Lookup(Found(primary.value), [url])
      else
        var other := FallbackUrl(url);
        var fallback := fetch(other);
        if !fallback.ok then Lookup(Missing, [url, other])
        else match fallback.body
          case Some(t) => Lookup(Found(t), [url, other])
          case None => Lookup(BodyRejected, [url, other])
  }

  /** Every map text found is the body of a response to a URL that was fetched,
      and at most two URLs are fetched. */
  lemma FoundTextWasFetched(text: string, fetch: string -> Response)
    ensures var r := GetBundleSourceMap(text, fetch);
      |r.requested| <= 2 &&
      (r.outcome.Found? ==> exists k :: 0 <= k < |r.requested| && fetch(r.requested[k]).body == Some(r.outcome.text))
  {
    var r := GetBundleSourceMap(text, fetch);
    if r.outcome.Found? {
      var url := ExtractMapReference(text).value;
      if fetch(url).body.Some? && fetch(url).body.value != "" {
        assert fetch(r.requested[0]).body == Some(r.outcome.text);
      } else {
        assert fetch(r.requested[1]).body == Some(r.outcome.text);
      }
    }
  }

  /** The status of the first response is never consulted: flipping it changes
      nothing, unless the fallback is fetched from the very same URL, whose
      status then decides the fallback. */
  lemma PrimaryStatusIgnored(text: string, fetch: string -> Response, url: string)
    requires ExtractMapReference(text) == Some(url)
    requires (fetch(url).body.Some? && fetch(url).body.value != "") || FallbackUrl(url) != url
    ensures var flipped := (u: string) => if u == url then Response(!fetch(u).ok, fetch(u).body) else fetch(u);
      GetBundleSourceMap(text, flipped) == GetBundleSourceMap(text, fetch)
  {
  }

  /** The case the lemma above leaves out does occur: a reference already on
      `js.rbxcdn.com` falls back to itself, so an empty first body with a
      failing status gives `undefined` where a passing one gives `""`. */
  lemma PrimaryStatusMattersOnSameUrl()
    ensures var url := CdnRoot + "a.map";
      var passing := (u: string) => Response(true, Some(""));
      var failing := (u: string) => Response(u != url, Some(""));
      && FallbackUrl(url) == url
      && GetBundleSourceMap(ReferenceMarker + url, passing).outcome == Found("")
      && GetBundleSourceMap(ReferenceMarker + url, failing).outcome == Missing
  {
    var url := CdnRoot + "a.map";
    SameUrlFallsBackToItself();
    SameUrlReference();
    SameUrlStatusDecides(ReferenceMarker + url, url, (u: string) => Response(true, Some("")));
    SameUrlStatusDecides(ReferenceMarker + url, url, (u: string) => Response(u != url, Some("")));
  }

  /** When the reference falls back to itself and its body is empty, the
      status of that one URL decides the outcome. */
  lemma SameUrlStatusDecides(text: string, url: string, fetch: string -> Response)
    requires ExtractMapReference(text) == Some(url) && FallbackUrl(url) == url
    requires fetch(url).body == Some("")
    ensures GetBundleSourceMap(text, fetch).outcome == if fetch(url).ok then Found("") else Missing
  {
  }

  lemma SameUrlFallsBackToItself()
    ensures FallbackUrl(CdnRoot + "a.map") == CdnRoot + "a.map"
  {
    var url := CdnRoot + "a.map";
    var host := "https://js.";
    assert url == host + CdnMarker + "a.map";
    forall k | 0 <= k < |host| ensures !HasAt(url, k, CdnMarker) {
      assert url[k + 10] != CdnMarker[10];
    }
    FallbackReplacesHost(host, "a.map");
  }

  lemma SameUrlReference()
    ensures var url := CdnRoot + "a.map"; ExtractMapReference(ReferenceMarker + url) == Some(url)
  {
    var url := CdnRoot + "a.map";
    var text := ReferenceMarker + url;
    assert url[|url| - |MapSuffix|..] == MapSuffix;
    assert HasAt(text, 0, ReferenceMarker + url);
    ExtractsWrittenReference(text, 0, url);
  }

  // ---------------------------------------------------------------------------
  // getBundlesSourceMaps

  /** What the batch returns: the maps found, and the Sentry bundles it warned
      about, in order. */
  datatype Batch = Batch(maps: map<string, string>, warned: seq<string>)

  /** The loop of `getBundlesSourceMaps` over a `Map` of bundle URL to text,
      with `lookup` standing for `getBundleSourceMap`: keeps the bundles whose
      map is truthy; a bundle without one is skipped, with a warning when its
      URL mentions Sentry; a rejected fallback body aborts the whole batch
      (`Failure` names the bundle). */
  function CollectMaps(bundles: seq<(string, string)>, lookup: string -> MapFetch): (r: Result<Batch, string>)
    requires DistinctKeys(bundles)
    ensures r.Success? <==> forall k :: 0 <= k < |bundles| ==> lookup(bundles[k].1) != BodyRejected
    ensures r.Failure? ==> exists k :: 0 <= k < |bundles| && bundles[k].0 == r.error && lookup(bundles[k].1) == BodyRejected
    ensures r.Success? ==> forall url :: url in r.value.maps ==> exists k :: 0 <= k < |bundles| && bundles[k].0 == url
    ensures r.Success? ==> forall k :: 0 <= k < |bundles| ==>
      (bundles[k].0 in r.value.maps <==> IsTruthy(lookup(bundles[k].1)))
      && (IsTruthy(lookup(bundles[k].1)) ==> r.value.maps[bundles[k].0] == lookup(bundles[k].1).text)
    decreases |bundles|
  {
    if |bundles| == 0 then Success(Batch(map[], []))
    else
      var url := bundles[0].0;
      var m := lookup(bundles[0].1);
      TailEntries(bundles);
      if m == BodyRejected then Failure(url)
      else match CollectMaps(bundles[1..], lookup)
        case Failure(u) => Failure(u)
        case Success(b) =>
          if IsTruthy(m) then Success(Batch(b.maps[url := m.text], b.warned))
          else if Contains(url, SentryMarker) then Success(Batch(b.maps, [url] + b.warned))
          else Success(b)
  }

  /** `getBundlesSourceMaps(bundles)`. */
  function GetBundlesSourceMaps(bundles: seq<(string, string)>, fetch: string -> Response): (r: Result<Batch, string>)
    requires DistinctKeys(bundles)
  {
    CollectMaps(bundles, text => GetBundleSourceMap(text, fetch).outcome)
  }

  /** The entries after the first: still distinct, and none with the first key. */
  lemma TailEntries<V>(entries: seq<(string, V)>)
    requires DistinctKeys(entries) && |entries| > 0
    ensures DistinctKeys(entries[1..])
    ensures forall k :: 0 <= k < |entries| - 1 ==> entries[1..][k] == entries[k + 1] && entries[k + 1].0 != entries[0].0
  {
  }

  /** The batch warns exactly about the Sentry bundles it skips, in order. */
  lemma {:induction false} CollectWarnings(bundles: seq<(string, string)>, lookup: string -> MapFetch)
    requires DistinctKeys(bundles)
    ensures var r := CollectMaps(bundles, lookup);
      r.Success? ==> forall url :: url in r.value.warned <==>
        exists k :: 0 <= k < |bundles| && bundles[k].0 == url && Contains(url, SentryMarker)
          && !IsTruthy(lookup(bundles[k].1))
    decreases |bundles|
  {
    var r := CollectMaps(bundles, lookup);
    if |bundles| > 0 && r.Success? {
      var rest := bundles[1..];
      TailEntries(bundles);
      CollectWarnings(rest, lookup);
      var b := CollectMaps(rest, lookup).value;
      forall u ensures u in r.value.warned <==>
        exists k :: 0 <= k < |bundles| && bundles[k].0 == u && Contains(u, SentryMarker) && !IsTruthy(lookup(bundles[k].1))
      {
        if u in b.warned {
          var k :| 0 <= k < |rest| && rest[k].0 == u && Contains(u, SentryMarker) && !IsTruthy(lookup(rest[k].1));
          assert bundles[k + 1] == rest[k];
        }
        if exists k :: 0 <= k < |bundles| && bundles[k].0 == u && Contains(u, SentryMarker) && !IsTruthy(lookup(bundles[k].1)) {
          var k :| 0 <= k < |bundles| && bundles[k].0 == u && Contains(u, SentryMarker) && !IsTruthy(lookup(bundles[k].1));
          if k > 0 {
            assert rest[k - 1] == bundles[k];
          }
        }
      }
    }
  }

  /** The batch keeps only bundles with a reference comment in them. */
  lemma BatchOnlyReferencedBundles(bundles: seq<(string, string)>, fetch: string -> Response)
    requires DistinctKeys(bundles)
    ensures var r := GetBundlesSourceMaps(bundles, fetch);
      r.Success? ==> forall url :: url in r.value.maps ==>
        exists k :: 0 <= k < |bundles| && bundles[k].0 == url && ExtractMapReference(bundles[k].1).Some?
  {
    var lookup := text => GetBundleSourceMap(text, fetch).outcome;
    var r := CollectMaps(bundles, lookup);
    if r.Success? {
      forall url | url in r.value.maps
        ensures exists k :: 0 <= k < |bundles| && bundles[k].0 == url && ExtractMapReference(bundles[k].1).Some?
      {
        var k :| 0 <= k < |bundles| && bundles[k].0 == url;
        assert IsTruthy(lookup(bundles[k].1));
      }
    }
  }
}

=== FILE: text.dfy ===
/** Character classes and string operations shared by the model: the JavaScript
    built-ins `split`, `join`, `trimEnd` and number-to-string, and the
    character classes the source's regular expressions use.
    A string is a sequence of Unicode scalar values, not of UTF-16 code units
    as in JavaScript, so text outside the Basic Multilingual Plane has fewer
    `char`s here than code units there. */
module Text {
  import opened Wrappers

  predicate IsAsciiLetter(c: char) {
    ('a' <= c <= 'z') || ('A' <= c <= 'Z')
  }

  predicate IsDigit(c: char) {
    '0' <= c <= '9'
  }

  /** The class `[a-zA-Z0-9._-]` every sanitised name is made of. */
  predicate IsNameChar(c: char) {
    IsAsciiLetter(c) || IsDigit(c) || c == '.' || c == '_' || c == '-'
  }

  predicate AllNameChars(s: string) {
    forall k :: 0 <= k < |s| ==> IsNameChar(s[k])
  }

  /** JavaScript LineTerminator: what `.` does not match. */
  predicate IsLineTerminator(c: char) {
    c == '\n' || c == '\r' || c == '\U{2028}' || c == '\U{2029}'
  }

  /** JavaScript WhiteSpace or LineTerminator: the regex class `\s`, and what
      `trimEnd` removes. */
  predicate IsSpace(c: char) {
    || c == '\t' || c == '\n' || c == '\U{B}' || c == '\U{C}' || c == '\r' || c == ' '
    || c == '\U{A0}' || c == '\U{1680}' || ('\U{2000}' <= c <= '\U{200A}')
    || c == '\U{2028}' || c == '\U{2029}' || c == '\U{202F}' || c == '\U{205F}'
    || c == '\U{3000}' || c == '\U{FEFF}'
  }

  /** `p` occurs in `s` at index `i`. */
  predicate HasAt(s: string, i: int, p: string) {
    0 <= i && i + |p| <= |s| && s[i..i + |p|] == p
  }

  /** No line terminator among `s[a..b]`. */
  predicate NoLineTerminator(s: string, a: int, b: int)
    requires 0 <= a <= b <= |s|
  {
    forall k :: a <= k < b ==> !IsLineTerminator(s[k])
  }

  /** The leftmost occurrence of `pat` at or after `from` (`indexOf`). */
  function FindFrom(s: string, pat: string, from: nat): (r: Option<nat>)
    ensures r.Some? ==> from <= r.value && HasAt(s, r.value, pat)
    ensures r.Some? ==> forall k :: from <= k < r.value ==> !HasAt(s, k, pat)
    ensures r.None? ==> forall k :: from <= k ==> !HasAt(s, k, pat)
    decreases |s| - from
  {
    if from + |pat| > |s| then None
    else if s[from..from + |pat|] == pat then Some(from)
    else FindFrom(s, pat, from + 1)
  }

  /** The last index of `c` in `s` (`lastIndexOf`). */
  function LastIndexOf(s: string, c: char): (r: Option<nat>)
    ensures r.None? <==> c !in s
    ensures r.Some? ==> r.value < |s| && s[r.value] == c && c !in s[r.value + 1..]
    decreases |s|
  {
    if |s| == 0 then None
    else if s[|s| - 1] == c then Some(|s| - 1)
    else
      var r := LastIndexOf(s[..|s| - 1], c);
      assert r.Some? ==> s[r.value + 1..] == s[..|s| - 1][r.value + 1..] + [s[|s| - 1]];
      r
  }

  /** `s.includes(pat)`. */
  predicate Contains(s: string, pat: string) {
    FindFrom(s, pat, 0).Some?
  }

  /** A JavaScript `Map<string, V>` as its entries in insertion order: the keys
      are distinct. */
  predicate DistinctKeys<V>(entries: seq<(string, V)>) {
    forall j, k :: 0 <= j < k < |entries| ==> entries[j].0 != entries[k].0
  }

  /** The keys of a map's entries, in order. */
  function Keys<V>(entries: seq<(string, V)>): (r: seq<string>)
    ensures |r| == |entries| && forall k :: 0 <= k < |r| ==> r[k] == entries[k].0
  {
    seq(|entries|, k requires 0 <= k < |entries| => entries[k].0)
  }

  // ---------------------------------------------------------------------------
  // split / join on a one-character separator

  /** `s.split(sep)`: the pieces between separators, empty pieces included;
      the empty string splits into one empty piece. */
  function Split(s: string, sep: char): (parts: seq<string>)
    ensures |parts| >= 1
    decreases |s|
  {
    if |s| == 0 then [""]
    else
      var rest := Split(s[1..], sep);
      if s[0] == sep then [""] + rest
      else [[s[0]] + rest[0]] + rest[1..]
  }

  /** No piece of a split holds the separator. */
  lemma {:induction false} SplitPiecesLackSeparator(s: string, sep: char)
    ensures forall k :: 0 <= k < |Split(s, sep)| ==> sep !in Split(s, sep)[k]
    decreases |s|
  {
    if |s| > 0 {
      SplitPiecesLackSeparator(s[1..], sep);
      var rest := Split(s[1..], sep);
      if s[0] != sep {
        assert sep !in [s[0]] + rest[0];
        assert Split(s, sep)[1..] == rest[1..];
      }
    }
  }

  /** `parts.join(sep)`. */
  function Join(parts: seq<string>, sep: char): string
    decreases |parts|
  {
    if |parts| == 0 then ""
    else if |parts| == 1 then parts[0]
    else parts[0] + [sep] + Join(parts[1..], sep)
  }

  lemma {:induction false} SplitWithoutSeparator(s: string, sep: char)
    requires sep !in s
    ensures Split(s, sep) == [s]
    decreases |s|
  {
    if |s| > 0 {
      SplitWithoutSeparator(s[1..], sep);
      assert [s[0]] + s[1..] == s;
    }
  }

  /** A separator splits a string exactly where it stands. */
  lemma {:induction false} SplitConcat(a: string, b: string, sep: char)
    ensures Split(a + [sep] + b, sep) == Split(a, sep) + Split(b, sep)
    decreases |a|
  {
    if |a| == 0 {
      SplitCons(sep, b, sep);
      assert a + [sep] + b == [sep] + b;
    } else {
      var t := a[1..];
      var ra := Split(t, sep);
      var rb := Split(b, sep);
      SplitConcat(t, b, sep);
      assert a + [sep] + b == [a[0]] + (t + [sep] + b);
      assert a == [a[0]] + t;
      SplitCons(a[0], t + [sep] + b, sep);
      SplitCons(a[0], t, sep);
      if a[0] == sep {
        SplitConsSeparator(ra, rb);
      } else {
        SplitConsOther([a[0]], ra, rb);
      }
    }
  }

  lemma SplitConsSeparator(ra: seq<string>, rb: seq<string>)
    ensures [""] + (ra + rb) == ([""] + ra) + rb
  {
  }

  lemma SplitConsOther(head: string, ra: seq<string>, rb: seq<string>)
    requires |ra| >= 1
    ensures [head + (ra + rb)[0]] + (ra + rb)[1..] == ([head + ra[0]] + ra[1..]) + rb
  {
    assert (ra + rb)[1..] == ra[1..] + rb;
  }

  /** One unfolding of `Split` on a string with a known first character. */
  lemma SplitCons(c: char, t: string, sep: char)
    ensures Split([c] + t, sep) ==
      if c == sep then [""] + Split(t, sep) else [[c] + Split(t, sep)[0]] + Split(t, sep)[1..]
  {
    assert ([c] + t)[1..] == t;
  }

  /** Joining the pieces of a split gives the string back. */
  lemma {:induction false} JoinSplit(s: string, sep: char)
    ensures Join(Split(s, sep), sep) == s
    decreases |s|
  {
    if |s| > 0 {
      var rest := Split(s[1..], sep);
      JoinSplit(s[1..], sep);
      if s[0] == sep {
        assert Split(s, sep) == [""] + rest;
        if |rest| == 1 {
          assert Join([""] + rest, sep) == "" + [sep] + rest[0];
        } else {
          assert ([""] + rest)[1..] == rest;
        }
      } else {
        var parts := Split(s, sep);
        assert parts == [[s[0]] + rest[0]] + rest[1..];
        if |rest| == 1 {
          assert Join(parts, sep) == [s[0]] + rest[0];
        } else {
          assert parts[1..] == rest[1..];
          assert Join(parts, sep) == [s[0]] + rest[0] + [sep] + Join(rest[1..], sep);
          assert Join(rest, sep) == rest[0] + [sep] + Join(rest[1..], sep);
        }
        assert [s[0]] + s[1..] == s;
      }
    }
  }

  /** Splitting a join of separator-free pieces gives the pieces back. */
  lemma {:induction false} SplitJoin(parts: seq<string>, sep: char)
    requires |parts| >= 1
    requires forall k :: 0 <= k < |parts| ==> sep !in parts[k]
    ensures Split(Join(parts, sep), sep) == parts
    decreases |parts|
  {
    SplitWithoutSeparator(parts[0], sep);
    if |parts| > 1 {
      SplitJoin(parts[1..], sep);
      SplitConcat(parts[0], Join(parts[1..], sep), sep);
      assert [parts[0]] + parts[1..] == parts;
    }
  }

  /** Every character of a join is a separator or a character of some piece. */
  lemma {:induction false} JoinNameChars(parts: seq<string>, sep: char)
    requires forall k :: 0 <= k < |parts| ==> AllNameChars(parts[k])
    ensures forall k :: 0 <= k < |Join(parts, sep)| ==>
      IsNameChar(Join(parts, sep)[k]) || Join(parts, sep)[k] == sep
    decreases |parts|
  {
    if |parts| > 1 {
      JoinNameChars(parts[1..], sep);
      var j := Join(parts, sep);
      var tail := Join(parts[1..], sep);
      assert j == parts[0] + [sep] + tail;
      forall k | 0 <= k < |j|
        ensures IsNameChar(j[k]) || j[k] == sep
      {
        if k < |parts[0]| {
          assert j[k] == parts[0][k];
        } else if k > |parts[0]| {
          assert j[k] == tail[k - |parts[0]| - 1];
        }
      }
    } else if |parts| == 1 {
      assert AllNameChars(parts[0]);
    }
  }

  lemma {:induction false} JoinAppendEmpty(parts: seq<string>, sep: char)
    requires |parts| >= 1
    ensures Join(parts + [""], sep) == Join(parts, sep) + [sep]
    decreases |parts|
  {
    if |parts| == 1 {
      assert (parts + [""])[1..] == [""];
    } else {
      JoinAppendEmpty(parts[1..], sep);
      assert (parts + [""])[1..] == parts[1..] + [""];
    }
  }

  // ---------------------------------------------------------------------------
  // trimEnd

  /** `s.trimEnd()`: the longest prefix of `s` that does not end in white space. */
  function TrimEnd(s: string): (r: string)
    ensures r <= s
    ensures |r| == 0 || !IsSpace(r[|r| - 1])
    ensures forall k :: |r| <= k < |s| ==> IsSpace(s[k])
    decreases |s|
  {
    if |s| > 0 && IsSpace(s[|s| - 1]) then TrimEnd(s[..|s| - 1]) else s
  }

  /** Trailing white space does not change what `trimEnd` keeps. */
  lemma {:induction false} TrimEndOfSpaces(s: string, w: string)
    requires forall k :: 0 <= k < |w| ==> IsSpace(w[k])
    ensures TrimEnd(s + w) == TrimEnd(s)
    decreases |w|
  {
    if |w| > 0 {
      var sw := s + w;
      assert sw[..|sw| - 1] == s + w[..|w| - 1];
      TrimEndOfSpaces(s, w[..|w| - 1]);
    } else {
      assert s + w == s;
    }
  }

  // ---------------------------------------------------------------------------
  // Decimal rendering of a number, as template-string interpolation does it

  function DigitChar(d: nat): (c: char)
    requires d < 10
    ensures IsDigit(c)
  {
    ['0', '1', '2', '3', '4', '5', '6', '7', '8', '9'][d]
  }

  function DigitValue(c: char): nat
    requires IsDigit(c)
  {
    (c as int - '0' as int) as nat
  }

  /** The value of a string of decimal digits. */
  function DecimalValue(s: string): nat
    requires forall k :: 0 <= k < |s| ==> IsDigit(s[k])
    decreases |s|
  {
    if |s| == 0 then 0 else DecimalValue(s[..|s| - 1]) * 10 + DigitValue(s[|s| - 1])
  }

  /** `${n}` for a natural number: its shortest decimal rendering. */
  function Decimal(n: nat): (r: string)
    ensures |r| >= 1
    ensures forall k :: 0 <= k < |r| ==> IsDigit(r[k])
    ensures n > 0 ==> r[0] != '0'
    decreases n
  {
    if n < 10 then [DigitChar(n)] else Decimal(n / 10) + [DigitChar(n % 10)]
  }

  /** Reading the rendering back gives the number. */
  lemma {:induction false} DecimalRoundTrip(n: nat)
    ensures DecimalValue(Decimal(n)) == n
    decreases n
  {
    if n >= 10 {
      DecimalRoundTrip(n / 10);
      var r := Decimal(n);
      assert r[..|r| - 1] == Decimal(n / 10);
    }
  }
}

=== FILE: wrappers.dfy ===
/** Failure-carrying datatypes: `Option` stands for a JavaScript value that may be
    `undefined`/`null`, `Result` for a computation that may throw. */
module Wrappers {

  datatype Option<+T> = None | Some(value: T) {

    /** The value, or `default` when absent (the `??` operator). */
    function GetOr(default: T): T {
      match this
      case Some(v) => v
      case None => default
    }
  }

  /** `Failure(error)` models an exception that escapes the operation. */
  datatype Result<+R, +E> = Success(value: R) | Failure(error: E)
}
